=== FILE: README.md ===
# Loan origination backend: a Dafny model

This project models the core of a loan-origination backend (an Express and
Mongoose service). The model covers the following:

- **Loan application record.** Its status and loan-type enumerations, its
  field domains and defaults, and the `calculateEMI` instalment formula.
- **Customer and officer profiles.** Their defaults, the customer's phone and
  PAN checks, and the officer's review counters.
- **Scoring configuration.** Credit and income ranges, weights, approval
  threshold and interest-rate tiers.
- **Evaluation service.** It normalises credit score and income into an
  eligibility score, picks a rate tier, sets status UNDER_REVIEW or REJECTED,
  prices the instalment and writes all four fields. It also groups
  applications by status for the statistics endpoints.
- **Role gate.** Requests without a role get 401; a role outside the list
  gets 403.
- **Customer handlers.**
  - Applying for a loan: validate, create a PENDING application, then
    evaluate it at once.
  - The two single-application reads, with their access rule.
  - The customer's own paginated listing, with statistics.
- **Officer handlers.**
  - The review transition: guards, terminal statuses, and counter updates.
  - The pending, all-loans and my-reviews listings, with filtering, ordering
    and `skip`/`limit` pagination.

The database is a `LoanStore` class. It holds the application, customer and
officer collections as maps, plus the creation order of applications. Its
validity invariant is that every stored document passes the schema's
validators. Handlers are methods on that store; each names exactly the fields
it may modify. Handler outcomes are an `Outcome` datatype:

| variant | HTTP status |
|---|---|
| `Ok` | 200 / 201 |
| `Invalid` | 400 validator error list |
| `BadRequest` | 400 |
| `Unauthorized` | 401 |
| `Forbidden` | 403 |
| `NotFound` | 404 |
| `ServerError` | 500 |

The route validators of `loan.routes.js` and `officer.routes.js` are modelled
as the first guard of their handlers, as `validationResult` is.

`calculateEMI` with a zero interest rate returns `null`: its
`!this.interestRate` guard fires before the `r === 0` straight-line branch,
so that branch can never be reached. `Applications.CalculateEmi` states that
the straight-line branch is never the result.

The evaluation is modelled as written, including the income term that can
exceed 1. When the rounded score passes the schema's `max: 1`, the save in
`evaluateLoan` fails, and `applyLoan` answers 500 with the PENDING
application left stored (see Findings).

## Model

| member | source | states |
|---|---|---|
| Applications.ParseStatus | backend/src/models/LoanApplication.js:31-39 | a token read as a status is that status's stored name; a refused token names no status |
| Applications.ParseStatusName | backend/src/models/LoanApplication.js:31-39 | reading the stored name of a status gives the status back |
| Applications.StatusNameUpper | backend/src/models/LoanApplication.js:38 | the schema's `uppercase` leaves every stored status token unchanged |
| Applications.ParseLoanType | backend/src/models/LoanApplication.js:46-51 | a token read as a loan type is that type's name; a refused token names no type |
| Applications.ParseLoanTypeName | backend/src/models/LoanApplication.js:46-51 | reading the name of a loan type gives the type back |
| Applications.LoanTypeNameUpper | backend/src/models/LoanApplication.js:50 | `uppercase` leaves every loan type name unchanged |
| Applications.NewApplication | backend/src/models/LoanApplication.js:3-72 | a new document is PENDING and has no score, rate, instalment, officer, notes or review time; it keeps the given customer, amount, tenure, type and creation time; its purpose is the given purpose trimmed; it passes the validators when amount, tenure and trimmed purpose are in range |
| Applications.BalanceClosedForm | backend/src/models/LoanApplication.js:84-92 | after k payments the balance B satisfies r·B = r·P·(1+r)^k − e·((1+r)^k − 1), for every k |
| Applications.AmortisedPaymentEquation | backend/src/models/LoanApplication.js:92 | the instalment e solves e·((1+r)^n − 1) = P·r·(1+r)^n, with a non-zero denominator |
| Applications.AmortisedPaymentRepays | backend/src/models/LoanApplication.js:84-92 | paying the unrounded instalment for n months leaves exactly nothing owed |
| Applications.AmortisedPaymentBounds | backend/src/models/LoanApplication.js:84-92 | each instalment exceeds the first month's interest, and n instalments repay at least the principal |
| Applications.CalculateEmi | backend/src/models/LoanApplication.js:79-94 | null exactly when rate, amount or tenure is missing or zero; otherwise the amortisation instalment at rate/12/100, rounded half-up to two decimals, never the straight-line branch |
| Applications.EmiPositive | backend/src/models/LoanApplication.js:79-94 | every application with a positive rate and an amount and tenure in the schema's ranges has a positive instalment |
| Numeric.Round2 | backend/src/models/LoanApplication.js:93 | `Math.round(x*100)/100` is a whole number of cents within half a cent of x (above −0.005, at most +0.005) |
| Numeric.Round2Monotone | backend/src/services/loan.service.js:67 | rounding to cents preserves order |
| Numeric.Round2OfCents | backend/src/services/loan.service.js:67 | rounding leaves a whole number of cents unchanged |
| Numeric.Round2Idempotent | backend/src/services/loan.service.js:67 | rounding twice is rounding once |
| Numeric.Round2AboveOne | backend/src/services/loan.service.js:67 | the rounded value exceeds 1 exactly when the value is at least 1.005 |
| Text.Upper | backend/src/controllers/officer.controller.js:146 | `toUpperCase` keeps the length and maps each character, so no lower-case letter is left |
| Text.UpperIdempotent | backend/src/controllers/officer.controller.js:153 | upper-casing twice is upper-casing once |
| Text.Trim | backend/src/models/LoanApplication.js:52-56 | `trim` returns the slice of the string that starts after its leading white space; every character removed before and after it is JavaScript white space or a line terminator, and none is left at either end |
| Text.TrimIdempotent | backend/src/routes/loan.routes.js:19 | trimming twice is trimming once, so the validator's trim and the schema's trim agree |
| Text.Join | backend/src/middleware/role.middleware.js:13 | joining no roles gives ""; joining one role gives that role; a join always starts with its first element |
| Text.JoinAppend | backend/src/middleware/role.middleware.js:13 | joining a non-empty list with one more element appends the separator and that element |
| Config.DefaultWellFormed | backend/src/config/auth.config.js:5-20 | the shipped tables are well formed: weights sum to 1, tier minimums strictly fall while rates strictly rise and stay within 30, and the approval threshold is the fair tier's minimum |
| Customers.NewCustomer | backend/src/models/Customer.js:9-41 | income defaults to 0, credit score to 650, employment to EMPLOYED, and the PAN is upper-cased |
| Customers.DefaultCustomerValid | backend/src/models/Customer.js:9-19 | a customer registered with only the ids passes the validators |
| Customers.PanCaseInsensitive | backend/src/models/Customer.js:37-41 | since the PAN is upper-cased first, it is accepted exactly when it has five letters of either case, four digits and a letter |
| Customers.PanExamples | backend/src/models/Customer.js:37-41 | "abcde1234f" is accepted after upper-casing; "abcd12345f" and a nine-character PAN are refused |
| Customers.PhoneExamples | backend/src/models/Customer.js:32-35 | ten digits are accepted; a space or a country prefix is refused |
| Officers.NewOfficer | backend/src/models/LoanOfficer.js:9-33 | the counters start at zero; the branch is trimmed or "Main Branch"; the department is GENERAL and the approval limit 10,000,000 unless given; the profile is valid exactly when the limit is not negative |
| Queries.Filter | backend/src/controllers/officer.controller.js:13-15 | `find(query)` keeps exactly the matching documents: each result matches and is stored, every stored match is kept, and each document is kept as many times as it is stored |
| Queries.FilterAppend | backend/src/controllers/officer.controller.js:13-15 | filtering preserves order: the filter of a concatenation is the concatenation of the filters |
| Queries.FilterSingle | backend/src/controllers/officer.controller.js:13-15 | a single document is kept exactly when it matches |
| Queries.Reverse | backend/src/controllers/loan.controller.js:141 | newest-first order is the creation order reversed, element by element, with the same members |
| Queries.PageCount | backend/src/controllers/loan.controller.js:156 | `Math.ceil(total/limit)` is the least page count whose pages hold every match |
| Queries.Page | backend/src/controllers/loan.controller.js:135-143 | `skip((page-1)*limit).limit(limit)` returns at most `limit` items, the ones at positions skip, skip+1, … of the ordered matches |
| Queries.PagesCover | backend/src/controllers/loan.controller.js:135-156 | every match appears on exactly the page its position selects, and that page is within the page count |
| Queries.ListingOf | backend/src/controllers/officer.controller.js:28-38 | the answer's loans are the requested page of the ordered matches, its total counts all matches, its page count is `ceil(total/limit)`, and it echoes the page and limit |
| Store.LoanStore.Create | backend/src/controllers/loan.controller.js:26-34 | saving a new application stores it under a fresh id appended to the creation order and keeps the store valid |
| Store.LoanStore.SaveApp | backend/src/controllers/officer.controller.js:158 | saving an application that passes the validators replaces exactly that document and touches nothing else |
| Store.LoanStore.SaveOfficer | backend/src/controllers/officer.controller.js:166 | saving an officer profile replaces exactly that profile and touches nothing else |
| Store.LoanStore.App | backend/src/controllers/officer.controller.js:117 | a stored application passes the schema's validators and has its review fields set together |
| Store.LoanStore.Officer | backend/src/controllers/officer.controller.js:137 | a stored officer profile belongs to its user and has consistent counters |
| Store.LoanStore.CustomerOf | backend/src/controllers/loan.controller.js:17 | `Customer.findOne({ userId })` finds a profile exactly when the user has one, and it is that user's |
| LoanService.Normalize | backend/src/services/loan.service.js:5-8 | 0 when the bounds coincide; otherwise the value is min + result·(max − min), and the result lies in [0,1] when the value lies between the bounds |
| LoanService.CreditNormRange | backend/src/services/loan.service.js:47-51 | the credit term is 0 at the lowest score, 1 at the highest, and in [0,1] between them |
| LoanService.IncomeNormCases | backend/src/services/loan.service.js:53-57 | normalising income against twice itself gives 0 for no income, exactly 0.5 up to half the maximum income, and income/maxIncome beyond that |
| LoanService.IncomeNormRange | backend/src/services/loan.service.js:53-57 | the income term is never negative, and is at most 1 up to the maximum income |
| LoanService.ScoreInUnitInterval | backend/src/services/loan.service.js:59-61 | for every customer the schema admits, the score with the income term capped lies in [0,1] |
| LoanService.ScoreAgreesUpToMaxIncome | backend/src/services/loan.service.js:53-61 | up to the maximum income, capping changes nothing: the capped score equals the source's score |
| LoanService.InterestRate | backend/src/services/loan.service.js:10-17 | the rate of the first tier, best first, whose minimum the score reaches: excellent from its minimum up, good below that down to its minimum, fair below both down to its minimum, poor below all three |
| LoanService.RateAntitone | backend/src/services/loan.service.js:10-17 | a higher score never gets a higher rate |
| LoanService.RateBoundaries | backend/src/services/loan.service.js:13-16 | with the shipped tables each tier minimum is inclusive: 0.75 gets 6.5 and 0.7499 gets 8.5; 0.60 gets 8.5 and 0.599 gets 11.5; 0.50 gets 11.5 and 0.4999 gets 15 |
| LoanService.Decide | backend/src/services/loan.service.js:63-67 | status UNDER_REVIEW exactly when the unrounded score reaches the threshold, else REJECTED; the rate is the tier of the unrounded score (at most the fair rate when accepted, the poor rate when rejected); the kept score is a whole number of cents within half a cent of the unrounded score |
| LoanService.RawScoreRange | backend/src/services/loan.service.js:47-61 | for every admitted customer the score as written is never negative, and at most 1 up to the maximum income |
| LoanService.AssessAsWritten | backend/src/services/loan.service.js:47-67 | UNDER_REVIEW exactly when the unrounded score reaches the threshold; the rate is the tier of the unrounded score; the kept score is a whole number of cents within half a cent of the unrounded score, and exceeds 1 exactly when the unrounded score is at least 1.005; it is never negative for an admitted customer and at most 1 up to the maximum income |
| LoanService.Assess | backend/src/services/loan.service.js:47-67 | the corrected evaluation: up to the maximum income it is the evaluation as written; for every admitted customer the kept score lies in [0,1] |
| LoanService.ScoreOverflowsAboveMaxIncome | backend/src/services/loan.service.js:53-61 | as written, credit score 850 and income 20,000,000 give score 1.4; the capped evaluation gives 1.0, UNDER_REVIEW, 6.5 |
| LoanService.CapChangesSavedDecisions | backend/src/services/loan.service.js:53-67 | credit score 300 and income 20,000,000 are kept as 0.8, UNDER_REVIEW, 6.5 as written, but would be 0.4, REJECTED, 15 capped |
| LoanService.RoundedScoreCanHideRejection | backend/src/services/loan.service.js:63-67 | credit score 574 and income 1,000,000 keep score 0.50 yet are REJECTED at 15%, because the status is decided before rounding |
| LoanService.LowestProfileRejected | backend/src/services/loan.service.js:47-67 | credit score 300 and no income give score 0, REJECTED, rate 15 |
| LoanService.EvaluationOf | backend/src/services/loan.service.js:75-80 | the answer copies the four stored fields |
| LoanService.Priced | backend/src/services/loan.service.js:67-71 | writes the assessed score, status and rate, then the instalment at that rate; the instalment is present exactly when amount and tenure are non-zero, and positive when they are in range; no other field changes |
| LoanService.Evaluate | backend/src/services/loan.service.js:47-71 | score, status and rate come from the evaluation as written; the status is UNDER_REVIEW or REJECTED; the instalment is `calculateEMI` of the updated record and positive for a valid application; no other field changes |
| LoanService.EvaluationSaves | backend/src/services/loan.service.js:59-73 | for a valid application of an admitted customer, the evaluated record passes the schema exactly when the unrounded score is below 1.005, and always when the income is at most the maximum |
| LoanService.CappedEvaluationSaves | backend/src/models/LoanApplication.js:40-45 | the capped evaluation priced onto a valid application always passes the schema, whatever the income |
| LoanService.OverflowingEvaluationRefused | backend/src/services/loan.service.js:59-73 | as written, the evaluation of credit score 850 and income 20,000,000 keeps score 1.4, which the schema refuses |
| LoanService.EvaluateLoan | backend/src/services/loan.service.js:19-85 | a missing application or customer fails with its message and writes nothing; otherwise it answers the evaluation and replaces exactly that application by it when the schema accepts it, and otherwise fails and writes nothing |
| LoanService.GroupByStatus | backend/src/services/loan.service.js:90-96 | the bucket counts add up to the number of documents, and no bucket is empty |
| LoanService.GroupByStatusBuckets | backend/src/services/loan.service.js:88-97 | a status has a bucket exactly when some document has it, and the bucket holds that count and the sum of those amounts |
| LoanService.CustomerLoanStats | backend/src/services/loan.service.js:87-100 | the customer's buckets count exactly the customer's applications |
| LoanService.OfficerLoanStats | backend/src/services/loan.service.js:102-115 | the officer's buckets count exactly the applications that officer reviewed |
| RoleMiddleware.CheckRole | backend/src/middleware/role.middleware.js:1-19 | 401 "Authentication required" exactly when the role is missing or empty; pass exactly when the role is listed; otherwise 403 naming the roles joined with " or " |
| RoleMiddleware.IsCustomerAdmits | backend/src/middleware/role.middleware.js:21 | `isCustomer` passes exactly CUSTOMER and names it when refusing |
| RoleMiddleware.IsOfficerAdmits | backend/src/middleware/role.middleware.js:22 | `isOfficer` passes exactly OFFICER and names it when refusing |
| RoleMiddleware.IsAuthenticatedAdmits | backend/src/middleware/role.middleware.js:23 | `isAuthenticated` passes exactly CUSTOMER and OFFICER and refuses with "CUSTOMER or OFFICER" |
| RoleMiddleware.WiderGateAdmitsMore | backend/src/middleware/role.middleware.js:1-19 | a gate with more roles passes everything a narrower one passes, and both give 401 for the same requests |
| OfficerController.ReviewErrors | backend/src/routes/officer.routes.js:13-18 | no errors exactly when the status is one of the three review statuses and the trimmed notes fit in 1000 characters; each message appears exactly when its check fails |
| OfficerController.ReviewDecision | backend/src/controllers/officer.controller.js:106-151 | the guards in order: validation errors give 400 with the list; then a missing application gives 404; then an APPROVED or REJECTED one gives 400 naming its status in lower case; then a missing officer profile gives 404 "Officer profile not found"; then a status that is not a review status gives 400. The review proceeds exactly when every guard passes; the status set is then the upper-cased request, never PENDING |
| OfficerController.ValidatedStatusAlwaysAccepted | backend/src/controllers/officer.controller.js:145-151 | after validation, the handler's own status check always passes |
| OfficerController.Reviewed | backend/src/controllers/officer.controller.js:153-156 | the review sets status, officer, trimmed notes (or "") and review time; every other field is unchanged; validity is kept |
| OfficerController.Tally | backend/src/controllers/officer.controller.js:160-165 | each review adds one to `totalReviewed`, one to `totalApproved` only for APPROVED and one to `totalRejected` only for REJECTED; consistency is kept |
| OfficerController.CountersCountReviews | backend/src/controllers/officer.controller.js:160-165 | from zero, the counters equal the number of reviews, approvals and rejections, so approvals plus rejections never exceed reviews |
| OfficerController.CountersExample | backend/src/controllers/officer.controller.js:160-165 | an approval then a rejection give counters (2, 1, 1) |
| OfficerController.ReviewStep | backend/src/controllers/officer.controller.js:130-156 | a review attempt leaves a decided application unchanged, applies `Reviewed` when the guards pass, and leaves the application unchanged whenever they refuse |
| OfficerController.DecidedIsAbsorbing | backend/src/controllers/officer.controller.js:130-135 | no sequence of review attempts changes an APPROVED or REJECTED application |
| OfficerController.NeverBackToPending | backend/src/controllers/officer.controller.js:145-153 | once an application has left PENDING, no sequence of review attempts returns it to PENDING |
| OfficerController.ReviewLoan | backend/src/controllers/officer.controller.js:104-187 | every refusal is answered as `ReviewDecision` says and changes nothing; on success exactly the application is replaced by its review and the officer's counters are tallied, with message "Loan application <status> successfully" |
| OfficerController.SaveReview | backend/src/controllers/officer.controller.js:153-166 | the reviewed application is saved, then the officer with tallied counters; nothing else changes and the store stays valid |
| OfficerController.Ordered | backend/src/controllers/officer.controller.js:11 | "asc" keeps creation order; any other order reverses it; the members are the same |
| OfficerController.PendingQuerySelects | backend/src/controllers/officer.controller.js:13-15 | the pending query matches exactly PENDING and UNDER_REVIEW applications |
| OfficerController.GetPendingLoans | backend/src/controllers/officer.controller.js:6-49 | the answer is the requested page of the pending applications in the requested order; every listed loan is PENDING or UNDER_REVIEW |
| OfficerController.AllLoansQuery | backend/src/controllers/officer.controller.js:53-60 | the query matches exactly the applications with the upper-cased status (when given) and the amount within the given inclusive bounds |
| OfficerController.GetAllLoans | backend/src/controllers/officer.controller.js:51-102 | the answer is the listing of the stored applications that meet the status and amount filters, in the requested order, at the requested page and limit (1 and 10 by default); every listed loan is stored and meets the filters |
| OfficerController.InsertByReview | backend/src/controllers/officer.controller.js:262 | inserting into a newest-review-first list keeps that order and adds exactly the one element |
| OfficerController.SortByReview | backend/src/controllers/officer.controller.js:262 | `.sort({ reviewedAt: -1 })` is a permutation into newest-review-first order (never-reviewed last) |
| OfficerController.PageNewestFirst | backend/src/controllers/officer.controller.js:256-264 | a page of a newest-review-first list is itself in that order |
| OfficerController.PageOfReordering | backend/src/controllers/officer.controller.js:256-264 | every entry of a page of a reordering is one of the original matches |
| OfficerController.ReviewsQuery | backend/src/controllers/officer.controller.js:251-254 | the query matches exactly the officer's reviewed applications, with the upper-cased status when given |
| OfficerController.GetMyReviews | backend/src/controllers/officer.controller.js:240-289 | 404 exactly when the caller has no officer profile; otherwise the listing of the officer's matches of the requested status sorted newest review first, at the requested page and limit (1 and 10 by default); the page is in newest-review-first order and holds only the officer's stored loans |
| LoanController.ApplyErrors | backend/src/routes/loan.routes.js:11-21 | no errors exactly when the amount is present and within 10,000..50,000,000, the tenure is 6..360, a given type names a loan type and the trimmed purpose fits in 500; a missing amount reports both amount messages first |
| LoanController.LoanTypeNameFixed | backend/src/controllers/loan.controller.js:30 | a loan type name accepted by the validator is unchanged by `toUpperCase` |
| LoanController.ChosenLoanType | backend/src/controllers/loan.controller.js:30 | a missing or empty type means PERSONAL; otherwise the upper-cased name, which for a validated name is the name itself |
| LoanController.PurposeOf | backend/src/controllers/loan.controller.js:31 | the purpose passed on is the trimmed request purpose, or "" |
| LoanController.Created | backend/src/controllers/loan.controller.js:26-32 | the new application for a validated request is the caller's, created now, PENDING, with the requested amount and tenure, the chosen loan type (PERSONAL by default) and the trimmed purpose ("" by default); nothing is evaluated or reviewed; it passes the validators |
| LoanController.Submitted | backend/src/controllers/loan.controller.js:26-36 | the evaluated application keeps every requested field of `Created`, is unreviewed, and carries the as-written score, status and rate of the customer and the positive instalment at that rate; it is UNDER_REVIEW or REJECTED, never PENDING |
| LoanController.ApplyLoan | backend/src/controllers/loan.controller.js:6-60 | validation errors give 400 with the list and change nothing; a caller without a profile gets 404 and nothing changes; otherwise one new application is stored under a fresh id: when the schema accepts the evaluation, the evaluated application is stored and answered with its evaluation; otherwise the answer is 500 "Error submitting loan application" and the PENDING application stays stored |
| LoanController.Submit | backend/src/controllers/loan.controller.js:26-58 | create, save, evaluate: the store gains exactly one application under the next id; it succeeds exactly when the schema accepts the evaluated application, which is then stored; otherwise it answers 500 and the created PENDING application stays stored |
| LoanController.ReadAccess | backend/src/controllers/loan.controller.js:82-90 | 403 "Access denied" exactly when the caller has a customer profile, the owner exists and differs, and the role is not OFFICER; 500 when the caller has a profile and the owner is gone; otherwise pass |
| LoanController.WhoMayRead | backend/src/controllers/loan.controller.js:82-90 | the owner, any officer and any caller without a customer profile may read an existing application |
| LoanController.OwnerOf | backend/src/controllers/loan.controller.js:83 | the populated owner is present exactly when the customer still exists, and is that customer |
| LoanController.CallerCustomer | backend/src/controllers/loan.controller.js:82 | the caller's profile id is present exactly when the caller has a customer profile |
| LoanController.StatusViewOf | backend/src/controllers/loan.controller.js:92-107 | the status view copies the eleven stored fields unchanged |
| LoanController.GetLoanStatus | backend/src/controllers/loan.controller.js:62-117 | 404 exactly when the id is unknown, before any access check; a refusal from the access rule is answered as it is; otherwise the status view |
| LoanController.GetLoanById | backend/src/controllers/loan.controller.js:172-215 | 404 exactly when the id is unknown; a refusal from the access rule is answered as it is; otherwise the whole stored application |
| LoanController.MyLoansQuery | backend/src/controllers/loan.controller.js:129-133 | the query matches exactly the caller's applications, with the upper-cased status when given |
| LoanController.GetMyLoans | backend/src/controllers/loan.controller.js:119-170 | 404 exactly when the caller has no customer profile; otherwise the requested page of the caller's matching applications newest first, and statistics over all the caller's applications |

## Findings

| source | as written | input that shows it | evidently intended | confidence | as-written member | corrected member |
|---|---|---|---|---|---|---|
| backend/src/services/loan.service.js:53-73 | income is normalised against `Math.min(income*2, maxIncome)`, so above the maximum income the income term exceeds 1 and the score can exceed 1. When the unrounded score is at least 1.005 (in exact arithmetic), the kept score exceeds the schema's `max: 1` on `eligibilityScore`, the save fails, `evaluateLoan` throws, `applyLoan` answers 500 and the application stays PENDING | credit score 850, income 20,000,000: score 0.6 + 0.4·2 = 1.4 | a score within [0,1] (the schema's bound), i.e. the income term capped at 1 | not executed | LoanService.OverflowingEvaluationRefused | LoanService.CappedEvaluationSaves |

The handlers (`LoanService.EvaluateLoan`, `LoanController.Submit`) model the
code as written: they evaluate with `LoanService.AssessAsWritten` and take
the failing-save path exactly when the rounded score exceeds 1
(`LoanService.EvaluationSaves`). An unrounded score between 1 and 1.005
rounds to 1.00 and is saved. `LoanService.Assess` is the corrected
definition: it caps the income term, always passes the schema
(`LoanService.ScoreInUnitInterval`, `LoanService.CappedEvaluationSaves`) and
agrees with the code for every income up to the maximum
(`LoanService.ScoreAgreesUpToMaxIncome`). Above the maximum it changes
decisions the code saves successfully (`LoanService.CapChangesSavedDecisions`),
so the intended fix may differ.

## Left out

- Persistence, `populate` of referenced users and officers, and the JSON
  shapes of responses. Documents are values in the store's maps; a populated
  reference is modelled only where its absence matters (`OwnerOf`).
- Authentication: `verifyToken`, JWT secrets and expiry, user accounts and
  registration (`auth.config.js` lines 2-3). The caller's user id and role
  are parameters.
- The catch-all 500 answers for database failures. The 500s modelled are the
  missing owner in the two reads, and the refused save of an evaluated
  application in `applyLoan` (see Findings). Only the first part of
  Mongoose's validation message is kept (`LoanService.SaveRejected`).
- `getOfficerStats` (`officer.controller.js` lines 189-238), a read-only
  dashboard. Its per-status grouping is `LoanService.OfficerLoanStats`.
- CalculateEmi: requires a non-negative rate (the schema's `min: 0`). A
  negative rate, which no evaluation assigns, is not modelled.
- Text.Upper, Text.Lower: map ASCII letters only. JavaScript's full Unicode
  case mapping is not modelled.
- The express-validator `trim()` is taken to be the same as
  `String.prototype.trim` (`Text.Trim`).
- GetPendingLoans, GetAllLoans: only the default `sortBy` of `createdAt` is
  modelled. Sorting by any other field is not.
- GetPendingLoans, GetAllLoans, GetMyReviews, GetMyLoans: require `page`
  and `limit` to be at least 1.
  - JavaScript accepts 0, negative and non-numeric query strings there, and
    yields odd skips or a NaN page count.
  - Query strings are taken as already parsed numbers. `parseFloat` of a
    non-numeric amount bound, which gives NaN, is not modelled.
- `createdAt` order is taken to be insertion order (`LoanStore.order`).
  Ties between equal timestamps are not modelled.
- OfficerController.SortByReview: applications with equal `reviewedAt` are
  placed in the one order its insertion sort produces. MongoDB leaves the
  order of such ties unspecified, so a page boundary falling among ties may
  hold different loans.
- Tenure is an integer in the model. A fractional tenure, which the
  validator's `isInt` refuses, cannot be expressed.
- The customer's `address` and `dateOfBirth` and the officer's `employeeId`
  uniqueness: stored, never read by the core, and not modelled.
- The officer's `approvalLimit`: kept and validated, but no handler checks it
  against the amount, and neither does the model.
- Atomicity: the review saves the application and then the officer in two
  separate writes. The model applies them in that order and does not model a
  failure between them.
- Timestamps: `new Date()` is a clock value passed in as `now`.
- Numeric.Round2 and all money, rate and score arithmetic are exact reals.
  The IEEE-754 rounding of `Math.pow`, `Math.round` and the score's sums and
  products is not modelled. In JavaScript, `Math.round(1.005*100)/100` is 1,
  so the exact 1.005 boundary of the Findings row may move by a unit in the
  last place.
- ApplyErrors, ReviewErrors: the trimmed purpose and notes are measured in
  code points. express-validator's `isLength` (from validator.js) also
  leaves out the variation selectors U+FE0E and U+FE0F. So 500 letters
  followed by U+FE0F get 400 here. The source's validator passes them, its
  `save()` then refuses 501 UTF-16 units and it answers 500. The same holds
  for 1000 letters of notes.
- Submit: string lengths are counted in code points. Mongoose's `maxlength`
  counts UTF-16 code units, so a purpose of at most 500 characters that needs
  more than 500 units passes the validator. In the source, the first `save()` then throws, `applyLoan`
  answers 500 and nothing is stored. The model stores the application.
- ApplyLoan: does not model that refused first save either, for the same
  reason as Submit.
- SaveReview: for the same reason, notes of at most 1000 characters but more
  than 1000 UTF-16 units are saved in the model. In the source,
  `loanApplication.save()` throws and nothing changes.
- ReviewLoan: answers success for such notes, where the source answers 500
  and changes neither the application nor the officer.

=== FILE: application.dfy ===
/**
 * The loan application record of `backend/src/models/LoanApplication.js`:
 * its enumerations, field domains and defaults, and `calculateEMI`.
 */
module Applications {
  import opened Results
  import opened Text
  import opened Numeric

  /** Database identifiers (Mongo object ids). */
  type Id = nat

  datatype Status = PENDING | UNDER_REVIEW | APPROVED | REJECTED

  /** The stored, upper-case token of a status. */
  function StatusName(s: Status): string {
    match s
    case PENDING => "PENDING"
    case UNDER_REVIEW => "UNDER_REVIEW"
    case APPROVED => "APPROVED"
    case REJECTED => "REJECTED"
  }

  /** Reads a stored status token; every other string is refused. */
  function ParseStatus(name: string): (r: Option<Status>)
    ensures r.Some? ==> StatusName(r.value) == name
    ensures r.None? ==> forall s :: StatusName(s) != name
  {
    if name == "PENDING" then Some(PENDING)
    else if name == "UNDER_REVIEW" then Some(UNDER_REVIEW)
    else if name == "APPROVED" then Some(APPROVED)
    else if name == "REJECTED" then Some(REJECTED)
    else None
  }

  /** Parsing undoes naming. */
  lemma ParseStatusName(s: Status)
    ensures ParseStatus(StatusName(s)) == Some(s)
  {
  }

  /** Status tokens contain no lower-case letter, so upper-casing leaves them alone. */
  lemma StatusNameUpper(s: Status)
    ensures Upper(StatusName(s)) == StatusName(s)
  {
    UpperFixes(StatusName(s));
  }

  /** APPROVED and REJECTED end the workflow. */
  predicate Terminal(s: Status) {
    s == APPROVED || s == REJECTED
  }

  datatype LoanType = PERSONAL | HOME | EDUCATION | BUSINESS | VEHICLE

  function LoanTypeName(t: LoanType): string {
    match t
    case PERSONAL => "PERSONAL"
    case HOME => "HOME"
    case EDUCATION => "EDUCATION"
    case BUSINESS => "BUSINESS"
    case VEHICLE => "VEHICLE"
  }

  function ParseLoanType(name: string): (r: Option<LoanType>)
    ensures r.Some? ==> LoanTypeName(r.value) == name
    ensures r.None? ==> forall t :: LoanTypeName(t) != name
  {
    if name == "PERSONAL" then Some(PERSONAL)
    else if name == "HOME" then Some(HOME)
    else if name == "EDUCATION" then Some(EDUCATION)
    else if name == "BUSINESS" then Some(BUSINESS)
    else if name == "VEHICLE" then Some(VEHICLE)
    else None
  }

  lemma ParseLoanTypeName(t: LoanType)
    ensures ParseLoanType(LoanTypeName(t)) == Some(t)
  {
  }

  lemma LoanTypeNameUpper(t: LoanType)
    ensures Upper(LoanTypeName(t)) == LoanTypeName(t)
  {
    UpperFixes(LoanTypeName(t));
  }

  /**
   * One document of the application collection. `None` is the schema's
   * `null` (or a field never set). Timestamps are whole numbers of a clock
   * supplied by the caller.
   */
  datatype LoanApplication = LoanApplication(
    customerId: Id,
    officerId: Option<Id>,
    amountRequested: real,
    tenureMonths: nat,
    interestRate: Option<real>,
    status: Status,
    eligibilityScore: Option<real>,
    loanType: LoanType,
    purpose: string,
    monthlyEMI: Option<real>,
    reviewNotes: Option<string>,
    reviewedAt: Option<int>,
    createdAt: int)

  const MinAmount: real := 10000.0
  const MaxAmount: real := 50000000.0
  const MinTenure: nat := 6
  const MaxTenure: nat := 360
  const MaxPurposeLength: nat := 500
  const MaxReviewNotesLength: nat := 1000

  predicate AmountInRange(amount: real) { MinAmount <= amount <= MaxAmount }
  predicate TenureInRange(tenure: int) { MinTenure <= tenure <= MaxTenure }

  /** The schema's validators: the field domains every saved document satisfies. */
  predicate ApplicationValid(a: LoanApplication) {
    && AmountInRange(a.amountRequested)
    && TenureInRange(a.tenureMonths)
    && (a.interestRate.Some? ==> 0.0 <= a.interestRate.value <= 30.0)
    && (a.eligibilityScore.Some? ==> 0.0 <= a.eligibilityScore.value <= 1.0)
    && |a.purpose| <= MaxPurposeLength
    && (a.reviewNotes.Some? ==> |a.reviewNotes.value| <= MaxReviewNotesLength)
  }

  /** Score, rate and instalment have not been computed yet. */
  predicate Unevaluated(a: LoanApplication) {
    a.eligibilityScore.None? && a.interestRate.None? && a.monthlyEMI.None?
  }

  /** No officer has reviewed the application yet. */
  predicate Unreviewed(a: LoanApplication) {
    a.officerId.None? && a.reviewNotes.None? && a.reviewedAt.None?
  }

  /**
   * `new LoanApplication({...})` with the schema defaults filled in: status
   * PENDING and officer, score, instalment and review time null; `purpose`
   * is trimmed by the schema.
   */
  function NewApplication(customerId: Id, amount: real, tenure: nat, loanType: LoanType,
                          purpose: string, now: int): (a: LoanApplication)
    ensures a.status == PENDING && Unevaluated(a) && Unreviewed(a)
    ensures a.customerId == customerId && a.amountRequested == amount
    ensures a.tenureMonths == tenure && a.loanType == loanType && a.createdAt == now
    ensures a.purpose == Trim(purpose)
    ensures AmountInRange(amount) && TenureInRange(tenure) && |Trim(purpose)| <= MaxPurposeLength
            ==> ApplicationValid(a)
  {
    LoanApplication(customerId, None, amount, tenure, None, PENDING, None, loanType,
                    Trim(purpose), None, None, None, now)
  }

  /** `interestRate / 12 / 100`: the monthly rate of an annual percentage. */
  function MonthlyRate(annualPercent: real): real {
    annualPercent / 12.0 / 100.0
  }

  /** The standard amortisation instalment P*r*(1+r)^n / ((1+r)^n - 1). */
  function AmortisedPayment(principal: real, r: real, n: nat): real
    requires r > 0.0 && n >= 1
  {
    PowAboveOne(1.0 + r, n);
    var q := Pow(1.0 + r, n);
    principal * r * q / (q - 1.0)
  }

  /**
   * What is still owed after `k` monthly payments of `payment`: each month
   * the balance accrues interest at rate `r` and one payment is subtracted.
   */
  function Balance(principal: real, r: real, payment: real, k: nat): real {
    if k == 0 then principal else Balance(principal, r, payment, k - 1) * (1.0 + r) - payment
  }

  /** The closed-form relation between a balance `b` and the growth factor `q = (1+r)^k`. */
  predicate ClosedForm(principal: real, r: real, payment: real, q: real, b: real) {
    r * b == r * principal * q - payment * (q - 1.0)
  }

  /** One month of the balance recurrence, on plain numbers. */
  lemma BalanceStep(r: real, principal: real, payment: real, p: real, b: real)
    requires ClosedForm(principal, r, payment, p, b)
    ensures ClosedForm(principal, r, payment, (1.0 + r) * p, b * (1.0 + r) - payment)
  {
    calc {
      r * (b * (1.0 + r) - payment);
      (r * b) * (1.0 + r) - r * payment;
      (r * principal * p - payment * (p - 1.0)) * (1.0 + r) - r * payment;
      r * principal * ((1.0 + r) * p) - payment * ((1.0 + r) * p - 1.0);
    }
  }

  /** Closed form of the balance: r*B(k) = r*P*(1+r)^k - payment*((1+r)^k - 1). */
  lemma {:induction false} BalanceClosedForm(principal: real, r: real, payment: real, k: nat)
    ensures ClosedForm(principal, r, payment, Pow(1.0 + r, k), Balance(principal, r, payment, k))
  {
    if k > 0 {
      var p := Pow(1.0 + r, k - 1);
      var b := Balance(principal, r, payment, k - 1);
      BalanceClosedForm(principal, r, payment, k - 1);
      BalanceStep(r, principal, payment, p, b);
      assert Pow(1.0 + r, k) == (1.0 + r) * p;
      assert Balance(principal, r, payment, k) == b * (1.0 + r) - payment;
    }
  }

  /** The defining equation of the instalment: e * (q - 1) = P * r * q with q = (1+r)^n. */
  lemma AmortisedPaymentEquation(principal: real, r: real, n: nat)
    requires r > 0.0 && n >= 1
    ensures Pow(1.0 + r, n) > 1.0
    ensures AmortisedPayment(principal, r, n) * (Pow(1.0 + r, n) - 1.0) == principal * r * Pow(1.0 + r, n)
  {
    PowAboveOne(1.0 + r, n);
    DivMulCancel(principal * r * Pow(1.0 + r, n), Pow(1.0 + r, n) - 1.0);
  }

  /** The amortisation instalment pays the loan off exactly in `n` months. */
  lemma AmortisedPaymentRepays(principal: real, r: real, n: nat)
    requires r > 0.0 && n >= 1
    ensures Balance(principal, r, AmortisedPayment(principal, r, n), n) == 0.0
  {
    var e := AmortisedPayment(principal, r, n);
    AmortisedPaymentEquation(principal, r, n);
    BalanceClosedForm(principal, r, e, n);
    NothingOwed(principal, r, Pow(1.0 + r, n), e, Balance(principal, r, e, n));
  }

  /** On plain numbers: when the payments cover P*r*q, the closed form leaves nothing owed. */
  lemma NothingOwed(principal: real, r: real, q: real, e: real, b: real)
    requires r > 0.0 && e * (q - 1.0) == principal * r * q
    requires r * b == r * principal * q - e * (q - 1.0)
    ensures b == 0.0
  {
    assert r * principal * q == principal * r * q;
    MulCancelEq(b, 0.0, r);
  }

  /** The two bounds of the instalment, on plain numbers. */
  lemma InstalmentBounds(principal: real, r: real, q: real, e: real, n: real)
    requires principal > 0.0 && r > 0.0 && q > 1.0 && n >= 1.0
    requires e * (q - 1.0) == principal * r * q
    requires q - 1.0 <= n * r * q
    ensures principal * r < e
    ensures principal <= n * e
  {
    var a := principal * r;
    assert a > 0.0;
    assert a * (q - 1.0) == a * q - a;
    assert a * (q - 1.0) < e * (q - 1.0);
    MulCancelLess(a, e, q - 1.0);
    MulMonotone(principal, q - 1.0, n * r * q);
    assert principal * (q - 1.0) <= n * (principal * r * q);
    assert (n * e) * (q - 1.0) == n * (e * (q - 1.0));
    MulCancelLessEq(principal, n * e, q - 1.0);
  }

  /**
   * Every instalment more than covers the first month's interest, and the
   * `n` instalments together repay at least the principal.
   */
  lemma AmortisedPaymentBounds(principal: real, r: real, n: nat)
    requires principal > 0.0 && r > 0.0 && n >= 1
    ensures principal * r < AmortisedPayment(principal, r, n)
    ensures principal <= (n as real) * AmortisedPayment(principal, r, n)
  {
    AmortisedPaymentEquation(principal, r, n);
    PowGrowthBound(r, n);
    InstalmentBounds(principal, r, Pow(1.0 + r, n), AmortisedPayment(principal, r, n), n as real);
  }

  /** `P / n`: the instalment without interest (JavaScript gives Infinity for n = 0; 0 here). */
  function StraightLine(principal: real, n: nat): real {
    if n == 0 then 0.0 else principal / n as real
  }

  /** `!value` of a JavaScript number field: absent or zero. */
  predicate Falsy(v: Option<real>) {
    v.None? || v.value == 0.0
  }

  /**
   * `calculateEMI`: null unless rate, amount and tenure are all set and
   * non-zero; otherwise the amortisation instalment at the monthly rate,
   * rounded to paise. It reads the record and writes nothing.
   */
  function CalculateEmi(app: LoanApplication): (emi: Option<real>)
    requires app.interestRate.Some? ==> app.interestRate.value >= 0.0
    ensures emi.None? <==> Falsy(app.interestRate) || app.amountRequested == 0.0 || app.tenureMonths == 0
    ensures emi.Some? ==> IsCents(emi.value)
    // the straight-line branch `P / n` is never the result: a zero rate is already refused
    ensures emi.Some? ==> emi.value == Round2(AmortisedPayment(app.amountRequested,
                                                                MonthlyRate(app.interestRate.value),
                                                                app.tenureMonths))
  {
    if Falsy(app.interestRate) || app.amountRequested == 0.0 || app.tenureMonths == 0 then None
    else
      var principal := app.amountRequested;
      var r := MonthlyRate(app.interestRate.value);
      var n := app.tenureMonths;
      if r == 0.0 then Some(StraightLine(principal, n))
      else Some(Round2(AmortisedPayment(principal, r, n)))
  }

  /** An application priced at a positive rate, with amount and tenure in range, has a positive instalment. */
  lemma EmiPositive(app: LoanApplication)
    requires AmountInRange(app.amountRequested) && TenureInRange(app.tenureMonths)
    requires app.interestRate.Some? && app.interestRate.value > 0.0
    ensures CalculateEmi(app).Some? && CalculateEmi(app).value > 0.0
  {
    var principal := app.amountRequested;
    var r := MonthlyRate(app.interestRate.value);
    var n := app.tenureMonths;
    var e := AmortisedPayment(principal, r, n);
    AmortisedPaymentBounds(principal, r, n);
    assert e > 0.0 by { assert principal * r > 0.0; }
    assert principal <= (n as real) * e;
    assert (n as real) <= 360.0;
    MulMonotone(e, n as real, 360.0);
    assert e * (n as real) <= e * 360.0;
    assert e * (n as real) == (n as real) * e;
    calc {
      principal;
    <= (n as real) * e;
    == e * (n as real);
    <= e * 360.0;
    }
    assert e > 0.005;
  }
}

=== FILE: config.dfy ===
/**
 * The scoring configuration of `backend/src/config/auth.config.js`
 * (`loanEvaluation` and `interestRates`), as one immutable value that the
 * evaluator and the store receive instead of reading ambient global state.
 */
module Config {

  datatype LoanEvaluation = LoanEvaluation(
    minCreditScore: int,
    maxCreditScore: int,
    minIncome: real,
    maxIncome: real,
    creditScoreWeight: real,
    incomeWeight: real,
    approvalThreshold: real)

  /** An interest-rate bracket: scores at or above `min` may get `rate` (percent a year). */
  datatype Tier = Tier(min: real, rate: real)

  datatype InterestRates = InterestRates(excellent: Tier, good: Tier, fair: Tier, poor: Tier)

  datatype ScoringConfig = ScoringConfig(loanEvaluation: LoanEvaluation, interestRates: InterestRates)

  /** The values the repository ships. */
  const Default: ScoringConfig := ScoringConfig(
    LoanEvaluation(
      minCreditScore := 300,
      maxCreditScore := 850,
      minIncome := 0.0,
      maxIncome := 10000000.0,
      creditScoreWeight := 0.6,
      incomeWeight := 0.4,
      approvalThreshold := 0.5),
    InterestRates(
      excellent := Tier(0.75, 6.5),
      good := Tier(0.60, 8.5),
      fair := Tier(0.50, 11.5),
      poor := Tier(0.0, 15.0)))

  /** Largest interest rate the application schema admits. */
  const MaxInterestRate: real := 30.0

  /**
   * The shape of a usable configuration: a non-empty credit range, incomes
   * normalised from zero, convex weights, tier minimums strictly falling
   * while tier rates strictly rise and stay within the schema's bound, and
   * the approval threshold sitting on the fair tier's minimum.
   */
  predicate WellFormed(cfg: ScoringConfig) {
    var e := cfg.loanEvaluation;
    var t := cfg.interestRates;
    && e.minCreditScore < e.maxCreditScore
    && e.minIncome == 0.0 && e.maxIncome > 0.0
    && e.creditScoreWeight >= 0.0 && e.incomeWeight >= 0.0
    && e.creditScoreWeight + e.incomeWeight == 1.0
    && t.excellent.min > t.good.min > t.fair.min > t.poor.min >= 0.0
    && 0.0 < t.excellent.rate < t.good.rate < t.fair.rate < t.poor.rate <= MaxInterestRate
    && e.approvalThreshold == t.fair.min
  }

  /** The shipped tables are well formed. */
  lemma DefaultWellFormed()
    ensures WellFormed(Default)
  {
  }
}

=== FILE: customer.dfy ===
/**
 * The customer profile of `backend/src/models/Customer.js`: the financial
 * inputs of the evaluator with their domains and defaults, and the phone and
 * PAN format checks.
 */
module Customers {
  import opened Results
  import opened Text
  import opened Applications

  datatype EmploymentStatus = EMPLOYED | SELF_EMPLOYED | UNEMPLOYED | RETIRED

  datatype Customer = Customer(
    id: Id,
    userId: Id,
    income: real,
    creditScore: int,
    employmentStatus: EmploymentStatus,
    phone: Option<string>,
    panNumber: Option<string>)

  const MinCreditScore: int := 300
  const MaxCreditScore: int := 850
  const DefaultCreditScore: int := 650

  /** `/^[0-9]{10}$/`: exactly ten decimal digits. */
  predicate IsPhone(s: string) {
    |s| == 10 && forall i :: 0 <= i < |s| ==> IsDigit(s[i])
  }

  /** `/^[A-Z]{5}[0-9]{4}[A-Z]{1}$/`: five capitals, four digits, one capital. */
  predicate IsPan(s: string) {
    && |s| == 10
    && (forall i :: 0 <= i < 5 ==> IsUpper(s[i]))
    && (forall i :: 5 <= i < 9 ==> IsDigit(s[i]))
    && IsUpper(s[9])
  }

  /**
   * A Mongoose `match` validator passes an unset or empty value and tests
   * the pattern otherwise.
   */
  predicate Matched(v: Option<string>, pattern: string -> bool) {
    v.None? || v.value == "" || pattern(v.value)
  }

  /** The schema's validators: income not negative, credit score within 300..850, well-formed phone and PAN. */
  predicate CustomerValid(c: Customer) {
    && c.income >= 0.0
    && MinCreditScore <= c.creditScore <= MaxCreditScore
    && Matched(c.phone, IsPhone)
    && Matched(c.panNumber, IsPan)
  }

  /**
   * A new customer document: income 0, credit score 650 and EMPLOYED when
   * not given; the PAN is upper-cased before it is stored and validated.
   */
  function NewCustomer(id: Id, userId: Id, income: Option<real>, creditScore: Option<int>,
                       employment: Option<EmploymentStatus>, phone: Option<string>,
                       panNumber: Option<string>): (c: Customer)
    ensures c.income == income.GetOr(0.0) && c.creditScore == creditScore.GetOr(DefaultCreditScore)
    ensures c.employmentStatus == employment.GetOr(EMPLOYED)
    ensures panNumber.Some? ==> c.panNumber == Some(Upper(panNumber.value))
  {
    var pan := if panNumber.Some? then Some(Upper(panNumber.value)) else None;
    Customer(id, userId, income.GetOr(0.0), creditScore.GetOr(DefaultCreditScore),
             employment.GetOr(EMPLOYED), phone, pan)
  }

  /** A customer registered with nothing but the required ids is valid. */
  lemma DefaultCustomerValid(id: Id, userId: Id)
    ensures CustomerValid(NewCustomer(id, userId, None, None, None, None, None))
  {
  }

  /**
   * Because the value is upper-cased first, the PAN check is case-blind:
   * it accepts exactly five letters of either case, four digits and a letter.
   */
  lemma PanCaseInsensitive(s: string)
    ensures IsPan(Upper(s)) <==>
      && |s| == 10
      && (forall i :: 0 <= i < 5 ==> IsLetter(s[i]))
      && (forall i :: 5 <= i < 9 ==> IsDigit(s[i]))
      && IsLetter(s[9])
  {
    var u := Upper(s);
    if |s| == 10 {
      assert forall i :: 0 <= i < 10 ==> (IsUpper(u[i]) <==> IsLetter(s[i]));
      assert forall i :: 0 <= i < 10 ==> (IsDigit(u[i]) <==> IsDigit(s[i]));
    }
  }

  lemma PanExamples()
    ensures IsPan(Upper("abcde1234f"))
    ensures !IsPan(Upper("abcd12345f"))
    ensures !IsPan("ABCDE1234")
  {
    assert Upper("abcde1234f") == "ABCDE1234F";
    assert "abcd12345f"[4] == '1';
  }

  lemma PhoneExamples()
    ensures IsPhone("9876543210")
    ensures !IsPhone("98765 4321")
    ensures !IsPhone("+919876543210")
  {
    assert "98765 4321"[5] == ' ';
  }
}

=== FILE: loan_controller.dfy ===
/**
 * The customer-facing handlers of `backend/src/controllers/loan.controller.js`:
 * submission (create, then evaluate at once), the read-access rule of the
 * two single-application reads, and the customer's own listing. The request
 * validators of `backend/src/routes/loan.routes.js` run first.
 */
module LoanController {
  import opened Results
  import opened Text
  import opened Config
  import opened Applications
  import opened Customers
  import opened Queries
  import opened Store
  import opened LoanService

  // ---- Submission ----

  /** The body of `POST /apply`; absent fields are `None`. */
  datatype ApplyRequest = ApplyRequest(
    amountRequested: Option<real>,
    tenureMonths: Option<int>,
    loanType: Option<string>,
    purpose: Option<string>)

  const AmountRequiredMessage: string := "Loan amount is required"
  const AmountRangeMessage: string := "Loan amount must be between ₹10,000 and ₹5,00,00,000"
  const TenureMessage: string := "Tenure must be between 6 and 360 months"
  const LoanTypeMessage: string := "Invalid loan type"
  const PurposeMessage: string := "Purpose cannot exceed 500 characters"
  const CustomerNotFound: string := "Customer profile not found"
  const LoanNotFound: string := "Loan application not found"
  const StatusFailure: string := "Error fetching loan status"
  const DetailsFailure: string := "Error fetching loan details"

  predicate IsLoanTypeName(name: string) {
    ParseLoanType(name).Some?
  }

  /** The request passes every route validator. */
  predicate ApplyValid(req: ApplyRequest) {
    && req.amountRequested.Some? && AmountInRange(req.amountRequested.value)
    && req.tenureMonths.Some? && TenureInRange(req.tenureMonths.value)
    && (req.loanType.Some? ==> IsLoanTypeName(req.loanType.value))
    && (req.purpose.Some? ==> |Trim(req.purpose.value)| <= MaxPurposeLength)
  }

  /**
   * The route validators' error list, one message per failing check: a
   * missing amount fails both of its checks, an amount outside
   * 10,000..50,000,000 the range check; the tenure must be 6..360; a given
   * loan type must name a type exactly; the trimmed purpose may not exceed
   * 500 characters.
   */
  function ApplyErrors(req: ApplyRequest): (errs: seq<string>)
    ensures errs == [] <==> ApplyValid(req)
    ensures req.amountRequested.None? ==> |errs| >= 2 && errs[..2] == [AmountRequiredMessage, AmountRangeMessage]
  {
    var amount := if req.amountRequested.None? then [AmountRequiredMessage, AmountRangeMessage]
                  else if !AmountInRange(req.amountRequested.value) then [AmountRangeMessage]
                  else [];
    var tenure := if req.tenureMonths.None? || !TenureInRange(req.tenureMonths.value) then [TenureMessage] else [];
    var loanType := if req.loanType.Some? && !IsLoanTypeName(req.loanType.value) then [LoanTypeMessage] else [];
    var purpose := if req.purpose.Some? && |Trim(req.purpose.value)| > MaxPurposeLength then [PurposeMessage] else [];
    assert |amount + tenure + loanType + purpose| == |amount| + |tenure| + |loanType| + |purpose|;
    assert (amount + tenure + loanType + purpose)[..|amount|] == amount;
    amount + tenure + loanType + purpose
  }

  /** A loan type name is already upper case. */
  lemma LoanTypeNameFixed(name: string)
    ensures IsLoanTypeName(name) ==> Upper(name) == name
  {
    if IsLoanTypeName(name) {
      LoanTypeNameUpper(ParseLoanType(name).value);
    }
  }

  /**
   * `loanType ? loanType.toUpperCase() : 'PERSONAL'`, read as a loan type;
   * a name the validator accepts is read as itself.
   */
  function ChosenLoanType(loanType: Option<string>): (t: Option<LoanType>)
    ensures loanType.None? || loanType.value == "" ==> t == Some(PERSONAL)
    ensures t.Some? && loanType.Some? && loanType.value != "" ==> LoanTypeName(t.value) == Upper(loanType.value)
    ensures loanType.Some? && IsLoanTypeName(loanType.value) ==> t == ParseLoanType(loanType.value) && t.Some?
  {
    if loanType.Some? && loanType.value != "" then
      LoanTypeNameFixed(loanType.value);
      ParseLoanType(Upper(loanType.value))
    else Some(PERSONAL)
  }

  /** The purpose the handler passes on: trimmed by the validator, or the empty string. */
  function PurposeOf(req: ApplyRequest): (p: string)
    ensures req.purpose.None? ==> p == ""
    ensures req.purpose.Some? ==> p == Trim(req.purpose.value)
  {
    if req.purpose.Some? then Trim(req.purpose.value) else ""
  }

  /**
   * The PENDING application a validated request creates for `customerId`:
   * the requested amount and tenure, the chosen loan type (PERSONAL when
   * none is given), the trimmed purpose (empty when none is given), nothing
   * evaluated or reviewed yet. It passes the schema's validators, so saving
   * it cannot fail.
   */
  function Created(customerId: Id, req: ApplyRequest, now: int): (a: LoanApplication)
    requires ApplyValid(req)
    ensures a.status == PENDING && a.customerId == customerId && a.createdAt == now
    ensures a.amountRequested == req.amountRequested.value && a.tenureMonths == req.tenureMonths.value
    ensures a.loanType == ChosenLoanType(req.loanType).value && a.purpose == PurposeOf(req)
    ensures Unevaluated(a) && Unreviewed(a)
    ensures ApplicationValid(a) && ReviewFieldsPaired(a)
  {
    TrimIdempotent(if req.purpose.Some? then req.purpose.value else "");
    NewApplication(customerId, req.amountRequested.value, req.tenureMonths.value as nat,
                   ChosenLoanType(req.loanType).value, PurposeOf(req), now)
  }

  /**
   * The application `applyLoan` stores when the evaluation's save succeeds:
   * the created application with the source's assessment of the customer
   * and the instalment at the assessed rate written onto it. It is never
   * left PENDING and is not yet reviewed.
   */
  function Submitted(cfg: ScoringConfig, customer: Customer, req: ApplyRequest, now: int): (app: LoanApplication)
    requires WellFormed(cfg) && ApplyValid(req)
    ensures app.customerId == customer.id && app.createdAt == now
    ensures app.amountRequested == req.amountRequested.value && app.tenureMonths == req.tenureMonths.value
    ensures app.loanType == ChosenLoanType(req.loanType).value && app.purpose == PurposeOf(req)
    ensures Unreviewed(app)
    ensures var a := AssessAsWritten(cfg, customer.creditScore, customer.income);
            app.eligibilityScore == Some(a.score) && app.status == a.status && app.interestRate == Some(a.rate)
    ensures app.status == UNDER_REVIEW || app.status == REJECTED
    ensures app.monthlyEMI == CalculateEmi(app) && app.monthlyEMI.Some? && app.monthlyEMI.value > 0.0
  {
    Evaluate(cfg, Created(customer.id, req, now), customer)
  }

  /** What a successful submission answers. */
  datatype Submission = Submission(loanId: Id, application: LoanApplication, evaluation: Evaluation)

  /** The answer when saving or evaluating the new application throws. */
  const SubmitFailure: string := "Error submitting loan application"

  /**
   * `applyLoan`: after validation and the profile lookup, a PENDING
   * application is created and immediately evaluated; the answer carries the
   * new id, the stored (evaluated) application and the evaluation. When the
   * schema refuses the evaluated record, the answer is a server error and
   * the PENDING application stays stored.
   */
  method ApplyLoan(store: LoanStore, userId: Id, req: ApplyRequest, now: int) returns (r: Outcome<Submission>)
    requires store.Valid()
    modifies store`apps, store`order, store`nextId
    ensures store.Valid()
    ensures ApplyErrors(req) != [] ==>
              && r == Invalid(ApplyErrors(req))
              && store.apps == old(store.apps) && store.order == old(store.order) && store.nextId == old(store.nextId)
    ensures ApplyErrors(req) == [] && store.CustomerOf(userId).None? ==>
              && r == NotFound(CustomerNotFound)
              && store.apps == old(store.apps) && store.order == old(store.order) && store.nextId == old(store.nextId)
    ensures ApplyErrors(req) == [] && store.CustomerOf(userId).Some? ==>
              var customer := store.CustomerOf(userId).value;
              var id := old(store.nextId);
              var evaluated := Submitted(store.cfg, customer, req, now);
              && id !in old(store.apps)
              && store.order == old(store.order) + [id] && store.nextId == old(store.nextId) + 1
              && (r.Ok? <==> ApplicationValid(evaluated))
              && (r.Ok? ==> store.apps == old(store.apps)[id := evaluated]
                            && r == Ok(Submission(id, evaluated, EvaluationOf(evaluated))))
              && (!r.Ok? ==> store.apps == old(store.apps)[id := Created(customer.id, req, now)]
                             && r == ServerError(SubmitFailure))
  {
    var errs := ApplyErrors(req);
    if errs != [] {
      return Invalid(errs);
    }
    var found := store.CustomerOf(userId);
    if found.None? {
      return NotFound(CustomerNotFound);
    }
    r := Submit(store, found.value, req, now);
  }

  /** Lines 26-50 of `applyLoan`: create the application, save it, evaluate it and answer. */
  method Submit(store: LoanStore, customer: Customer, req: ApplyRequest, now: int) returns (r: Outcome<Submission>)
    requires store.Valid() && ApplyValid(req)
    requires customer.id in store.customers && store.customers[customer.id] == customer
    modifies store`apps, store`order, store`nextId
    ensures store.Valid()
    ensures old(store.nextId) !in old(store.apps)
    ensures store.order == old(store.order) + [old(store.nextId)] && store.nextId == old(store.nextId) + 1
    ensures r.Ok? <==> ApplicationValid(Submitted(store.cfg, customer, req, now))
    ensures r.Ok? ==>
              var evaluated := Submitted(store.cfg, customer, req, now);
              && store.apps == old(store.apps)[old(store.nextId) := evaluated]
              && r == Ok(Submission(old(store.nextId), evaluated, EvaluationOf(evaluated)))
    ensures !r.Ok? ==>
              && store.apps == old(store.apps)[old(store.nextId) := Created(customer.id, req, now)]
              && r == ServerError(SubmitFailure)
  {
    var application := Created(customer.id, req, now);
    ghost var before := store.apps;
    ghost var evaluated := Submitted(store.cfg, customer, req, now);
    assert evaluated == Evaluate(store.cfg, application, customer);
    var id := store.Create(application);
    assert store.apps[id] == application && store.customers[application.customerId] == customer;
    var evaluation := EvaluateLoan(store, id);
    if !evaluation.Ok? {
      return ServerError(SubmitFailure);
    }
    OverwriteTwice(before, id, application, evaluated);
    r := Ok(Submission(id, store.apps[id], evaluation.value));
  }

  // ---- Reading one application ----

  /**
   * The access rule of `getLoanStatus` and `getLoanById`: a caller with a
   * customer profile who does not own the application is refused unless
   * the role is OFFICER; a caller without a profile passes. Reading the
   * owner of an application whose customer no longer exists fails (500).
   */
  function ReadAccess(callerCustomer: Option<Id>, owner: Option<Id>, role: Option<string>, failure: string)
    : (r: Outcome<()>)
    ensures r.Ok? || r.Forbidden? || r.ServerError?
    ensures r.Forbidden? <==> callerCustomer.Some? && owner.Some? && owner.value != callerCustomer.value
                              && role != Some("OFFICER")
    ensures r.Forbidden? ==> r.msg == "Access denied"
    ensures r.ServerError? <==> callerCustomer.Some? && owner.None?
  {
    if callerCustomer.None? then Ok(())
    else if owner.None? then ServerError(failure)
    else if owner.value != callerCustomer.value && role != Some("OFFICER") then Forbidden("Access denied")
    else Ok(())
  }

  /** The owner, any officer, and any caller without a customer profile may read an existing application. */
  lemma WhoMayRead(callerCustomer: Option<Id>, owner: Id, role: Option<string>, failure: string)
    ensures callerCustomer == Some(owner) ==> ReadAccess(callerCustomer, Some(owner), role, failure).Ok?
    ensures role == Some("OFFICER") ==> ReadAccess(callerCustomer, Some(owner), role, failure).Ok?
    ensures callerCustomer.None? ==> ReadAccess(callerCustomer, Some(owner), role, failure).Ok?
  {
  }

  /** The owner of an application as the populated `customerId` shows it: absent when the customer is gone. */
  function OwnerOf(store: LoanStore, app: LoanApplication): (o: Option<Id>)
    reads store
    ensures o.Some? <==> app.customerId in store.customers
    ensures o.Some? ==> o.value == app.customerId
  {
    if app.customerId in store.customers then Some(app.customerId) else None
  }

  /** The body of `getLoanStatus`. */
  datatype StatusView = StatusView(
    loanId: Id, status: Status, eligibilityScore: Option<real>, amountRequested: real,
    tenureMonths: nat, interestRate: Option<real>, monthlyEMI: Option<real>, loanType: LoanType,
    createdAt: int, reviewedAt: Option<int>, reviewNotes: Option<string>)

  /** The status view copies the stored fields unchanged. */
  function StatusViewOf(id: Id, a: LoanApplication): (v: StatusView)
    ensures v.loanId == id && v.status == a.status && v.eligibilityScore == a.eligibilityScore
    ensures v.amountRequested == a.amountRequested && v.tenureMonths == a.tenureMonths
    ensures v.interestRate == a.interestRate && v.monthlyEMI == a.monthlyEMI && v.loanType == a.loanType
    ensures v.createdAt == a.createdAt && v.reviewedAt == a.reviewedAt && v.reviewNotes == a.reviewNotes
  {
    StatusView(id, a.status, a.eligibilityScore, a.amountRequested, a.tenureMonths, a.interestRate,
               a.monthlyEMI, a.loanType, a.createdAt, a.reviewedAt, a.reviewNotes)
  }

  /** The caller's customer profile id, if any. */
  function CallerCustomer(store: LoanStore, userId: Id): (c: Option<Id>)
    reads store
    requires store.Valid()
    ensures c.Some? <==> store.CustomerOf(userId).Some?
    ensures c.Some? ==> c.value == store.CustomerOf(userId).value.id
  {
    match store.CustomerOf(userId)
    case None => None
    case Some(customer) => Some(customer.id)
  }

  /** `getLoanStatus`: 404 before any access check, then the access rule, then the status view. */
  method GetLoanStatus(store: LoanStore, userId: Id, role: Option<string>, id: Id) returns (r: Outcome<StatusView>)
    requires store.Valid()
    ensures id !in store.apps <==> r == NotFound(LoanNotFound)
    ensures id in store.apps ==>
              var access := ReadAccess(CallerCustomer(store, userId), OwnerOf(store, store.apps[id]), role,
                                       StatusFailure);
              && (!access.Ok? ==> r == access.Cast())
              && (access.Ok? ==> r == Ok(StatusViewOf(id, store.apps[id])))
  {
    if id !in store.apps {
      return NotFound(LoanNotFound);
    }
    var application := store.apps[id];
    var access := ReadAccess(CallerCustomer(store, userId), OwnerOf(store, application), role,
                             StatusFailure);
    if !access.Ok? {
      return access.Cast();
    }
    r := Ok(StatusViewOf(id, application));
  }

  /** `getLoanById`: as `getLoanStatus`, answering the whole stored application. */
  method GetLoanById(store: LoanStore, userId: Id, role: Option<string>, id: Id) returns (r: Outcome<LoanApplication>)
    requires store.Valid()
    ensures id !in store.apps <==> r == NotFound(LoanNotFound)
    ensures id in store.apps ==>
              var access := ReadAccess(CallerCustomer(store, userId), OwnerOf(store, store.apps[id]), role,
                                       DetailsFailure);
              && (!access.Ok? ==> r == access.Cast())
              && (access.Ok? ==> r == Ok(store.apps[id]))
  {
    if id !in store.apps {
      return NotFound(LoanNotFound);
    }
    var application := store.apps[id];
    var access := ReadAccess(CallerCustomer(store, userId), OwnerOf(store, application), role,
                             DetailsFailure);
    if !access.Ok? {
      return access.Cast();
    }
    r := Ok(application);
  }

  // ---- The customer's own applications ----

  /** The query `getMyLoans` builds: the customer, and the upper-cased status when given. */
  method MyLoansQuery(customerId: Id, status: Option<string>) returns (q: Query)
    ensures q == Query(Some(customerId), None,
                       StatusFilter(status), None, None)
    ensures forall a :: Matches(a, q) <==>
              && a.customerId == customerId
              && (status.Some? && status.value != "" ==> StatusName(a.status) == Upper(status.value))
  {
    q := Everything.(customerId := Some(customerId));
    if status.Some? && status.value != "" {
      q := q.(statuses := Some({Upper(status.value)}));
    }
  }

  /** The body of `getMyLoans`: one page of applications and the per-status statistics. */
  datatype MyLoans = MyLoans(listing: Listing, stats: map<Status, StatusGroup>)

  /**
   * `getMyLoans`: only the caller's own applications, newest first,
   * optionally of one status, one page of them, with the caller's
   * statistics over all their applications.
   */
  method GetMyLoans(store: LoanStore, userId: Id, status: Option<string>, page: Option<nat>, limit: Option<nat>)
    returns (r: Outcome<MyLoans>)
    requires store.Valid()
    requires page.GetOr(1) >= 1 && limit.GetOr(10) >= 1
    ensures store.CustomerOf(userId).None? <==> r == NotFound(CustomerNotFound)
    ensures store.CustomerOf(userId).Some? ==> r.Ok?
    ensures r.Ok? ==>
              var customer := store.CustomerOf(userId).value;
              var statuses := StatusFilter(status);
              var mine := Filter(store.Docs(), Query(Some(customer.id), None, statuses, None, None));
              && r.value.listing == ListingOf(Reverse(mine), page.GetOr(1), limit.GetOr(10))
              && r.value.stats == CustomerLoanStats(store.Docs(), customer.id)
              && TotalCount(r.value.stats) == |Filter(store.Docs(), ByCustomer(customer.id))|
              && (forall k :: 0 <= k < |r.value.listing.loans| ==>
                    && r.value.listing.loans[k].customerId == customer.id
                    && (statuses.Some? ==> StatusName(r.value.listing.loans[k].status) in statuses.value))
  {
    var found := store.CustomerOf(userId);
    if found.None? {
      return NotFound(CustomerNotFound);
    }
    var customer := found.value;
    var query := MyLoansQuery(customer.id, status);
    var p := page.GetOr(1);
    var l := limit.GetOr(10);
    var mine := Filter(store.Docs(), query);
    var newestFirst := Reverse(mine);
    var listing := ListingOf(newestFirst, p, l);
    var stats := CustomerLoanStats(store.Docs(), customer.id);
    r := Ok(MyLoans(listing, stats));
  }
}

=== FILE: loan_service.dfy ===
/**
 * `backend/src/services/loan.service.js`: the eligibility score, the
 * interest-rate tiers, the evaluation that writes score, status, rate and
 * instalment onto an application, and the per-status statistics.
 */
module LoanService {
  import opened Results
  import opened Numeric
  import opened Config
  import opened Applications
  import opened Customers
  import opened Queries
  import opened Store

  /** `normalize`: where `value` sits between `min` and `max`; 0 when the bounds coincide. */
  function Normalize(value: real, min: real, max: real): (r: real)
    ensures max == min ==> r == 0.0
    ensures max != min ==> min + r * (max - min) == value
    ensures min < max && min <= value <= max ==> 0.0 <= r <= 1.0
  {
    if max == min then 0.0
    else
      QuotientInUnit(value - min, max - min);
      (value - min) / (max - min)
  }

  function CreditNorm(cfg: ScoringConfig, creditScore: int): real {
    Normalize(creditScore as real, cfg.loanEvaluation.minCreditScore as real,
              cfg.loanEvaluation.maxCreditScore as real)
  }

  /** `Math.min(income * 2, maxIncome)`: the upper bound income is normalised against. */
  function IncomeCap(cfg: ScoringConfig, income: real): real {
    if income * 2.0 <= cfg.loanEvaluation.maxIncome then income * 2.0 else cfg.loanEvaluation.maxIncome
  }

  /** The income term as the source computes it (no cap at 1). */
  function IncomeNorm(cfg: ScoringConfig, income: real): real {
    Normalize(income, cfg.loanEvaluation.minIncome, IncomeCap(cfg, income))
  }

  /** The credit term runs from 0 at the lowest score to 1 at the highest. */
  lemma CreditNormRange(cfg: ScoringConfig, creditScore: int)
    requires WellFormed(cfg)
    ensures CreditNorm(cfg, cfg.loanEvaluation.minCreditScore) == 0.0
    ensures CreditNorm(cfg, cfg.loanEvaluation.maxCreditScore) == 1.0
    ensures cfg.loanEvaluation.minCreditScore <= creditScore <= cfg.loanEvaluation.maxCreditScore
            ==> 0.0 <= CreditNorm(cfg, creditScore) <= 1.0
  {
  }

  /**
   * Because income is normalised against twice itself, the income term is 0
   * for no income, exactly one half up to half the maximum income, and
   * income / maxIncome beyond that.
   */
  lemma IncomeNormCases(cfg: ScoringConfig, income: real)
    requires WellFormed(cfg) && income >= 0.0
    ensures income == 0.0 ==> IncomeNorm(cfg, income) == 0.0
    ensures 0.0 < income && income * 2.0 <= cfg.loanEvaluation.maxIncome ==> IncomeNorm(cfg, income) == 0.5
    ensures income * 2.0 > cfg.loanEvaluation.maxIncome
            ==> IncomeNorm(cfg, income) == income / cfg.loanEvaluation.maxIncome
  {
    var m := cfg.loanEvaluation.maxIncome;
    if 0.0 < income && income * 2.0 <= m {
      assert IncomeNorm(cfg, income) == income / (income * 2.0);
      HalfOfDouble(income);
    }
  }

  /** The income term is never negative, and at most 1 up to the maximum income. */
  lemma IncomeNormRange(cfg: ScoringConfig, income: real)
    requires WellFormed(cfg) && income >= 0.0
    ensures 0.0 <= IncomeNorm(cfg, income)
    ensures income <= cfg.loanEvaluation.maxIncome ==> IncomeNorm(cfg, income) <= 1.0
  {
    IncomeNormCases(cfg, income);
    var m := cfg.loanEvaluation.maxIncome;
    if income * 2.0 > m {
      assert income / m * m == income;
      if income <= m {
        MulCancelLessEq(income / m, 1.0, m);
      }
    }
  }

  /** `creditScoreWeight * creditNorm + incomeWeight * incomeNorm`, as written. */
  function RawScore(cfg: ScoringConfig, creditScore: int, income: real): real {
    cfg.loanEvaluation.creditScoreWeight * CreditNorm(cfg, creditScore)
    + cfg.loanEvaluation.incomeWeight * IncomeNorm(cfg, income)
  }

  /** The income term capped at 1, so that no income lifts the score past 1. */
  function CappedIncomeNorm(cfg: ScoringConfig, income: real): real {
    var n := IncomeNorm(cfg, income);
    if n <= 1.0 then n else 1.0
  }

  /** The eligibility score with the income term capped (see ScoreInUnitInterval). */
  function Score(cfg: ScoringConfig, creditScore: int, income: real): real {
    cfg.loanEvaluation.creditScoreWeight * CreditNorm(cfg, creditScore)
    + cfg.loanEvaluation.incomeWeight * CappedIncomeNorm(cfg, income)
  }

  /** A weight times a number of [0,1] lies between 0 and the weight. */
  lemma ScaledInUnit(w: real, x: real)
    requires w >= 0.0 && 0.0 <= x <= 1.0
    ensures 0.0 <= w * x <= w
  {
    MulMonotone(w, x, 1.0);
    MulMonotone(w, 0.0, x);
  }

  /** On plain numbers: two parts within weights that sum to 1 sum to a number of [0,1]. */
  lemma SumWithinWeights(a: real, b: real, w1: real, w2: real)
    requires 0.0 <= a <= w1 && 0.0 <= b <= w2 && w1 + w2 == 1.0
    ensures 0.0 <= a + b <= 1.0
  {
  }

  /** A convex combination of two numbers of [0,1] lies in [0,1]. */
  lemma ConvexInUnit(w1: real, x: real, w2: real, y: real)
    requires w1 >= 0.0 && w2 >= 0.0 && w1 + w2 == 1.0
    requires 0.0 <= x <= 1.0 && 0.0 <= y <= 1.0
    ensures 0.0 <= w1 * x + w2 * y <= 1.0
  {
    ScaledInUnit(w1, x);
    ScaledInUnit(w2, y);
    SumWithinWeights(w1 * x, w2 * y, w1, w2);
  }

  /** For every customer the schema admits, the capped score lies in [0,1]. */
  lemma ScoreInUnitInterval(cfg: ScoringConfig, creditScore: int, income: real)
    requires WellFormed(cfg) && income >= 0.0
    requires cfg.loanEvaluation.minCreditScore <= creditScore <= cfg.loanEvaluation.maxCreditScore
    ensures 0.0 <= Score(cfg, creditScore, income) <= 1.0
  {
    CreditNormRange(cfg, creditScore);
    IncomeNormRange(cfg, income);
    ConvexInUnit(cfg.loanEvaluation.creditScoreWeight, CreditNorm(cfg, creditScore),
                 cfg.loanEvaluation.incomeWeight, CappedIncomeNorm(cfg, income));
  }

  /** Up to the maximum income the cap changes nothing: the capped score is the source's score. */
  lemma ScoreAgreesUpToMaxIncome(cfg: ScoringConfig, creditScore: int, income: real)
    requires WellFormed(cfg) && 0.0 <= income <= cfg.loanEvaluation.maxIncome
    ensures Score(cfg, creditScore, income) == RawScore(cfg, creditScore, income)
  {
    IncomeNormRange(cfg, income);
  }

  /** `calculateInterestRate`: the rate of the first tier, best first, whose minimum the score reaches. */
  function InterestRate(rates: InterestRates, score: real): (rate: real)
    ensures rate == rates.excellent.rate || rate == rates.good.rate
            || rate == rates.fair.rate || rate == rates.poor.rate
    ensures score >= rates.excellent.min ==> rate == rates.excellent.rate
    ensures rates.good.min <= score < rates.excellent.min ==> rate == rates.good.rate
    ensures rates.fair.min <= score < rates.good.min && score < rates.excellent.min ==> rate == rates.fair.rate
    ensures score < rates.fair.min && score < rates.good.min && score < rates.excellent.min ==> rate == rates.poor.rate
  {
    if score >= rates.excellent.min then rates.excellent.rate
    else if score >= rates.good.min then rates.good.rate
    else if score >= rates.fair.min then rates.fair.rate
    else rates.poor.rate
  }

  /** A better score never gets a higher rate. */
  lemma RateAntitone(cfg: ScoringConfig, s1: real, s2: real)
    requires WellFormed(cfg) && s1 <= s2
    ensures InterestRate(cfg.interestRates, s2) <= InterestRate(cfg.interestRates, s1)
  {
  }

  /** The tier boundaries are inclusive. */
  lemma RateBoundaries()
    ensures InterestRate(Default.interestRates, 0.75) == 6.5
    ensures InterestRate(Default.interestRates, 0.7499) == 8.5
    ensures InterestRate(Default.interestRates, 0.60) == 8.5
    ensures InterestRate(Default.interestRates, 0.599) == 11.5
    ensures InterestRate(Default.interestRates, 0.50) == 11.5
    ensures InterestRate(Default.interestRates, 0.4999) == 15.0
  {
  }

  /** Score, status and rate as the evaluation decides them from an unrounded score. */
  datatype Assessment = Assessment(score: real, status: Status, rate: real)

  /**
   * Status and rate are decided on the unrounded score; the score that is
   * kept is rounded to two decimals.
   */
  function Decide(cfg: ScoringConfig, raw: real): (a: Assessment)
    requires WellFormed(cfg)
    ensures a.status == UNDER_REVIEW || a.status == REJECTED
    ensures a.status == UNDER_REVIEW <==> raw >= cfg.loanEvaluation.approvalThreshold
    ensures raw - 0.005 < a.score <= raw + 0.005 && IsCents(a.score)
    ensures a.rate == InterestRate(cfg.interestRates, raw)
    ensures a.status == UNDER_REVIEW ==> a.rate <= cfg.interestRates.fair.rate
    ensures a.status == REJECTED ==> a.rate == cfg.interestRates.poor.rate
    ensures 0.0 < a.rate <= MaxInterestRate
  {
    var status := if raw >= cfg.loanEvaluation.approvalThreshold then UNDER_REVIEW else REJECTED;
    Assessment(Round2(raw), status, InterestRate(cfg.interestRates, raw))
  }

  /** The customers the schema admits, under a configuration that scores them. */
  predicate Admitted(cfg: ScoringConfig, creditScore: int, income: real) {
    income >= 0.0 && cfg.loanEvaluation.minCreditScore <= creditScore <= cfg.loanEvaluation.maxCreditScore
  }

  /** The score as written is never negative, and at most 1 up to the maximum income. */
  lemma RawScoreRange(cfg: ScoringConfig, creditScore: int, income: real)
    requires WellFormed(cfg) && Admitted(cfg, creditScore, income)
    ensures 0.0 <= RawScore(cfg, creditScore, income)
    ensures income <= cfg.loanEvaluation.maxIncome ==> RawScore(cfg, creditScore, income) <= 1.0
  {
    var w1, w2 := cfg.loanEvaluation.creditScoreWeight, cfg.loanEvaluation.incomeWeight;
    CreditNormRange(cfg, creditScore);
    IncomeNormRange(cfg, income);
    ScaledInUnit(w1, CreditNorm(cfg, creditScore));
    MulMonotone(w2, 0.0, IncomeNorm(cfg, income));
    SumNonNegative(w1 * CreditNorm(cfg, creditScore), w2 * IncomeNorm(cfg, income));
    if income <= cfg.loanEvaluation.maxIncome {
      ScoreAgreesUpToMaxIncome(cfg, creditScore, income);
      ScoreInUnitInterval(cfg, creditScore, income);
    }
  }

  /** On plain numbers: two non-negative parts have a non-negative sum. */
  lemma SumNonNegative(a: real, b: real)
    requires a >= 0.0 && b >= 0.0
    ensures a + b >= 0.0
  {
  }

  /**
   * The evaluation of lines 47-67 exactly as written; the handlers use it.
   * The kept score passes 1, which the schema refuses, exactly when the
   * unrounded score reaches 1.005; that needs an income above the maximum.
   */
  function AssessAsWritten(cfg: ScoringConfig, creditScore: int, income: real): (a: Assessment)
    requires WellFormed(cfg)
    ensures a.status == UNDER_REVIEW <==> RawScore(cfg, creditScore, income) >= cfg.loanEvaluation.approvalThreshold
    ensures a.rate == InterestRate(cfg.interestRates, RawScore(cfg, creditScore, income))
    ensures RawScore(cfg, creditScore, income) - 0.005 < a.score <= RawScore(cfg, creditScore, income) + 0.005
    ensures IsCents(a.score)
    ensures a.score > 1.0 <==> RawScore(cfg, creditScore, income) >= 1.005
    ensures Admitted(cfg, creditScore, income) ==> 0.0 <= a.score
    ensures Admitted(cfg, creditScore, income) && income <= cfg.loanEvaluation.maxIncome ==> a.score <= 1.0
  {
    AsWrittenScoreFacts(cfg, creditScore, income);
    Decide(cfg, RawScore(cfg, creditScore, income))
  }

  lemma AsWrittenScoreFacts(cfg: ScoringConfig, creditScore: int, income: real)
    requires WellFormed(cfg)
    ensures Round2(RawScore(cfg, creditScore, income)) > 1.0 <==> RawScore(cfg, creditScore, income) >= 1.005
    ensures Admitted(cfg, creditScore, income) ==> 0.0 <= Round2(RawScore(cfg, creditScore, income))
    ensures Admitted(cfg, creditScore, income) && income <= cfg.loanEvaluation.maxIncome
            ==> Round2(RawScore(cfg, creditScore, income)) <= 1.0
  {
    var raw := RawScore(cfg, creditScore, income);
    Round2AboveOne(raw);
    if Admitted(cfg, creditScore, income) {
      RawScoreRange(cfg, creditScore, income);
      Round2Monotone(0.0, raw);
      Round2OfCents(0.0);
    }
  }

  /**
   * The evaluation with the income term capped at 1: the corrected
   * definition, whose score always passes the schema (CappedEvaluationSaves).
   */
  function Assess(cfg: ScoringConfig, creditScore: int, income: real): (a: Assessment)
    requires WellFormed(cfg)
    ensures 0.0 <= income <= cfg.loanEvaluation.maxIncome ==> a == AssessAsWritten(cfg, creditScore, income)
    ensures Admitted(cfg, creditScore, income) ==> 0.0 <= a.score <= 1.0
  {
    AssessFacts(cfg, creditScore, income);
    Decide(cfg, Score(cfg, creditScore, income))
  }

  lemma AssessFacts(cfg: ScoringConfig, creditScore: int, income: real)
    requires WellFormed(cfg)
    ensures 0.0 <= income <= cfg.loanEvaluation.maxIncome
            ==> Score(cfg, creditScore, income) == RawScore(cfg, creditScore, income)
    ensures Admitted(cfg, creditScore, income) ==> 0.0 <= Round2(Score(cfg, creditScore, income)) <= 1.0
  {
    if 0.0 <= income <= cfg.loanEvaluation.maxIncome {
      ScoreAgreesUpToMaxIncome(cfg, creditScore, income);
    }
    if Admitted(cfg, creditScore, income) {
      var s := Score(cfg, creditScore, income);
      ScoreInUnitInterval(cfg, creditScore, income);
      Round2Monotone(0.0, s);
      Round2Monotone(s, 1.0);
      Round2OfCents(0.0);
      Round2OfCents(1.0);
    }
  }

  /**
   * As written, an income above the maximum pushes the score past 1: a
   * customer with credit score 850 and income 20,000,000 gets 1.4, which the
   * schema's `max: 1` on `eligibilityScore` refuses, so the save fails. The
   * capped evaluation gives 1.0 and the excellent rate.
   */
  lemma ScoreOverflowsAboveMaxIncome()
    ensures AssessAsWritten(Default, 850, 20000000.0).score == 1.4
    ensures Assess(Default, 850, 20000000.0) == Assessment(1.0, UNDER_REVIEW, 6.5)
  {
    assert RawScore(Default, 850, 20000000.0) == 1.4;
    assert (1.4 * 100.0 + 0.5).Floor == 140;
    assert Score(Default, 850, 20000000.0) == 1.0;
    assert (1.0 * 100.0 + 0.5).Floor == 100;
  }

  /**
   * Capping is not neutral where the source's save succeeds: credit score
   * 300 and income 20,000,000 score 0.8 as written (kept, under review, at
   * the excellent rate) but 0.4 capped (rejected, at the poor rate).
   */
  lemma CapChangesSavedDecisions()
    ensures AssessAsWritten(Default, 300, 20000000.0) == Assessment(0.8, UNDER_REVIEW, 6.5)
    ensures Assess(Default, 300, 20000000.0) == Assessment(0.4, REJECTED, 15.0)
  {
    assert RawScore(Default, 300, 20000000.0) == 0.8;
    assert (0.8 * 100.0 + 0.5).Floor == 80;
    assert Score(Default, 300, 20000000.0) == 0.4;
    assert (0.4 * 100.0 + 0.5).Floor == 40;
  }

  /**
   * The kept score can round up across the threshold while the status stays
   * REJECTED: credit score 574 and income 1,000,000 give 0.4989..., kept as 0.50.
   */
  lemma RoundedScoreCanHideRejection()
    ensures AssessAsWritten(Default, 574, 1000000.0) == Assessment(0.5, REJECTED, 15.0)
  {
    var raw := RawScore(Default, 574, 1000000.0);
    IncomeNormCases(Default, 1000000.0);
    assert raw == 0.6 * (274.0 / 550.0) + 0.2;
    assert (raw * 100.0 + 0.5).Floor == 50;
  }

  /** The lowest profile gets score 0, the poor rate and is rejected. */
  lemma LowestProfileRejected()
    ensures AssessAsWritten(Default, 300, 0.0) == Assessment(0.0, REJECTED, 15.0)
  {
    assert RawScore(Default, 300, 0.0) == 0.0;
    Round2OfCents(0.0);
  }

  /** The four fields the evaluation writes and returns. */
  datatype Evaluation = Evaluation(
    eligibilityScore: Option<real>, status: Status, interestRate: Option<real>, monthlyEMI: Option<real>)

  function EvaluationOf(a: LoanApplication): (e: Evaluation)
    ensures e.eligibilityScore == a.eligibilityScore && e.status == a.status
    ensures e.interestRate == a.interestRate && e.monthlyEMI == a.monthlyEMI
  {
    Evaluation(a.eligibilityScore, a.status, a.interestRate, a.monthlyEMI)
  }

  /**
   * An application with an assessment written onto it: score, status and
   * rate, then the instalment recomputed at that rate; every other field as
   * it was.
   */
  function Priced(app: LoanApplication, a: Assessment): (r: LoanApplication)
    requires 0.0 < a.rate <= MaxInterestRate
    ensures r.eligibilityScore == Some(a.score) && r.status == a.status && r.interestRate == Some(a.rate)
    ensures r.monthlyEMI == CalculateEmi(r)
    ensures r.monthlyEMI.Some? <==> app.amountRequested != 0.0 && app.tenureMonths != 0
    ensures AmountInRange(app.amountRequested) && TenureInRange(app.tenureMonths)
            ==> r.monthlyEMI.Some? && r.monthlyEMI.value > 0.0
    ensures r == app.(eligibilityScore := r.eligibilityScore, status := r.status,
                      interestRate := r.interestRate, monthlyEMI := r.monthlyEMI)
  {
    var scored := app.(eligibilityScore := Some(a.score), status := a.status, interestRate := Some(a.rate));
    PricedFacts(scored);
    scored.(monthlyEMI := CalculateEmi(scored))
  }

  lemma PricedFacts(scored: LoanApplication)
    requires scored.interestRate.Some? && scored.interestRate.value > 0.0
    ensures AmountInRange(scored.amountRequested) && TenureInRange(scored.tenureMonths)
            ==> CalculateEmi(scored).Some? && CalculateEmi(scored).value > 0.0
  {
    if AmountInRange(scored.amountRequested) && TenureInRange(scored.tenureMonths) {
      EmiPositive(scored);
    }
  }

  /**
   * `evaluateLoan`'s record, as written: the source's assessment of the
   * customer priced onto the application (see EvaluationSaves for when the
   * schema accepts it).
   */
  function Evaluate(cfg: ScoringConfig, app: LoanApplication, customer: Customer): (r: LoanApplication)
    requires WellFormed(cfg)
    ensures var a := AssessAsWritten(cfg, customer.creditScore, customer.income);
            r.eligibilityScore == Some(a.score) && r.status == a.status && r.interestRate == Some(a.rate)
    ensures r.status == UNDER_REVIEW || r.status == REJECTED
    ensures r.monthlyEMI.Some? <==> app.amountRequested != 0.0 && app.tenureMonths != 0
    ensures r.monthlyEMI == CalculateEmi(r)
    ensures r == app.(eligibilityScore := r.eligibilityScore, status := r.status,
                      interestRate := r.interestRate, monthlyEMI := r.monthlyEMI)
    ensures ApplicationValid(app) ==> r.monthlyEMI.Some? && r.monthlyEMI.value > 0.0
  {
    Priced(app, AssessAsWritten(cfg, customer.creditScore, customer.income))
  }

  /**
   * For a valid application and a customer the schema admits, the schema
   * accepts the evaluated record exactly when the unrounded score stays
   * below 1.005, and always when the income is at most the maximum.
   */
  lemma EvaluationSaves(cfg: ScoringConfig, app: LoanApplication, customer: Customer)
    requires WellFormed(cfg) && ApplicationValid(app) && CustomerValid(customer) && CoversCustomerDomain(cfg)
    ensures ApplicationValid(Evaluate(cfg, app, customer))
            <==> RawScore(cfg, customer.creditScore, customer.income) < 1.005
    ensures customer.income <= cfg.loanEvaluation.maxIncome ==> ApplicationValid(Evaluate(cfg, app, customer))
  {
    assert Admitted(cfg, customer.creditScore, customer.income);
  }

  /**
   * The corrected definition: the capped assessment priced onto a valid
   * application always gives a record the schema accepts, whatever the income.
   */
  lemma CappedEvaluationSaves(cfg: ScoringConfig, app: LoanApplication, customer: Customer)
    requires WellFormed(cfg) && ApplicationValid(app) && CustomerValid(customer) && CoversCustomerDomain(cfg)
    ensures ApplicationValid(Priced(app, Assess(cfg, customer.creditScore, customer.income)))
  {
    assert Admitted(cfg, customer.creditScore, customer.income);
  }

  /** As written, the 850 / 20,000,000 customer's evaluation is refused by the schema. */
  lemma OverflowingEvaluationRefused(app: LoanApplication, customer: Customer)
    requires ApplicationValid(app) && customer.creditScore == 850 && customer.income == 20000000.0
    ensures !ApplicationValid(Evaluate(Default, app, customer))
    ensures Evaluate(Default, app, customer).eligibilityScore == Some(1.4)
  {
    ScoreOverflowsAboveMaxIncome();
  }

  /** The answers of `evaluateLoan` when a document is missing or the save is refused. */
  const LoanMissing: string := "Loan application not found"
  const CustomerMissing: string := "Customer details not found"
  const SaveRejected: string := "LoanApplication validation failed"

  /**
   * `evaluateLoan(applicationId)`: fails when the application or its
   * customer is missing, writing nothing; otherwise evaluates the
   * application and saves it, or, when the schema refuses the evaluated
   * record, throws and leaves the stored application as it was.
   */
  method EvaluateLoan(store: LoanStore, id: Id) returns (r: Outcome<Evaluation>)
    requires store.Valid()
    modifies store`apps
    ensures store.Valid() && store.order == old(store.order) && store.nextId == old(store.nextId)
    ensures id !in old(store.apps) ==> r == NotFound(LoanMissing) && store.apps == old(store.apps)
    ensures id in old(store.apps) && old(store.apps)[id].customerId !in store.customers
            ==> r == NotFound(CustomerMissing) && store.apps == old(store.apps)
    ensures id in old(store.apps) && old(store.apps)[id].customerId in store.customers
            ==> var app := old(store.apps)[id];
                var evaluated := Evaluate(store.cfg, app, store.customers[app.customerId]);
                && (r.Ok? <==> ApplicationValid(evaluated))
                && (r.Ok? ==> store.apps == old(store.apps)[id := evaluated] && r == Ok(EvaluationOf(evaluated)))
                && (!r.Ok? ==> store.apps == old(store.apps) && r == ServerError(SaveRejected))
  {
    if id !in store.apps {
      return NotFound(LoanMissing);
    }
    var application := store.apps[id];
    if application.customerId !in store.customers {
      return NotFound(CustomerMissing);
    }
    var customer := store.customers[application.customerId];
    var evaluated := Evaluate(store.cfg, application, customer);
    if !ApplicationValid(evaluated) {
      return ServerError(SaveRejected);
    }
    store.SaveApp(id, evaluated);
    r := Ok(EvaluationOf(evaluated));
  }

  // ---- Statistics: `$match` then `$group` by status ----

  /** One `$group` bucket: how many applications, and their summed amount. */
  datatype StatusGroup = StatusGroup(count: nat, totalAmount: real)

  function CountIn(g: map<Status, StatusGroup>, s: Status): nat {
    if s in g then g[s].count else 0
  }

  /** The counts of all four buckets together. */
  function TotalCount(g: map<Status, StatusGroup>): nat {
    CountIn(g, PENDING) + CountIn(g, UNDER_REVIEW) + CountIn(g, APPROVED) + CountIn(g, REJECTED)
  }

  /** The bucket of `s` before one more document is added: empty when `s` has none yet. */
  function Bucket(g: map<Status, StatusGroup>, s: Status): StatusGroup {
    if s in g then g[s] else StatusGroup(0, 0.0)
  }

  /** Groups the documents by status, one bucket per status that occurs. */
  function GroupByStatus(docs: seq<LoanApplication>): (g: map<Status, StatusGroup>)
    ensures TotalCount(g) == |docs|
    ensures forall s :: s in g ==> g[s].count > 0
    decreases |docs|
  {
    if docs == [] then map[]
    else
      var g := GroupByStatus(docs[..|docs| - 1]);
      var a := docs[|docs| - 1];
      var before := Bucket(g, a.status);
      var g' := g[a.status := StatusGroup(before.count + 1, before.totalAmount + a.amountRequested)];
      assert CountIn(g', a.status) == CountIn(g, a.status) + 1;
      assert forall s :: s != a.status ==> CountIn(g', s) == CountIn(g, s);
      g'
  }

  /** Reference definitions: how many documents have status `s`, and their summed amount. */
  function CountWith(docs: seq<LoanApplication>, s: Status): nat
    decreases |docs|
  {
    if docs == [] then 0
    else CountWith(docs[..|docs| - 1], s) + (if docs[|docs| - 1].status == s then 1 else 0)
  }

  function AmountWith(docs: seq<LoanApplication>, s: Status): real
    decreases |docs|
  {
    if docs == [] then 0.0
    else AmountWith(docs[..|docs| - 1], s)
         + (if docs[|docs| - 1].status == s then docs[|docs| - 1].amountRequested else 0.0)
  }

  /** Each bucket holds exactly the documents of its status and the sum of their amounts. */
  lemma {:induction false} GroupByStatusBuckets(docs: seq<LoanApplication>, s: Status)
    ensures s in GroupByStatus(docs) <==> CountWith(docs, s) > 0
    ensures CountWith(docs, s) == 0 ==> AmountWith(docs, s) == 0.0
    ensures s in GroupByStatus(docs) ==>
              GroupByStatus(docs)[s] == StatusGroup(CountWith(docs, s), AmountWith(docs, s))
    decreases |docs|
  {
    if docs != [] {
      var init, a := docs[..|docs| - 1], docs[|docs| - 1];
      GroupByStatusBuckets(init, s);
      var g := GroupByStatus(init);
      var g' := GroupByStatus(docs);
      if a.status == s {
        assert Bucket(g, s) == StatusGroup(CountWith(init, s), AmountWith(init, s));
        assert s in g' && g'[s] == StatusGroup(Bucket(g, s).count + 1, Bucket(g, s).totalAmount + a.amountRequested);
      } else {
        assert (s in g' <==> s in g) && (s in g ==> g'[s] == g[s]);
      }
    }
  }

  /** The query that `getCustomerLoanStats` matches on. */
  function ByCustomer(customerId: Id): Query {
    Query(Some(customerId), None, None, None, None)
  }

  /** The query that `getOfficerLoanStats` matches on. */
  function ByOfficer(officerId: Id): Query {
    Query(None, Some(officerId), None, None, None)
  }

  /** `getCustomerLoanStats`: the customer's applications grouped by status. */
  function CustomerLoanStats(docs: seq<LoanApplication>, customerId: Id): (g: map<Status, StatusGroup>)
    ensures TotalCount(g) == |Filter(docs, ByCustomer(customerId))|
  {
    GroupByStatus(Filter(docs, ByCustomer(customerId)))
  }

  /** `getOfficerLoanStats`: the applications the officer reviewed, grouped by status. */
  function OfficerLoanStats(docs: seq<LoanApplication>, officerId: Id): (g: map<Status, StatusGroup>)
    ensures TotalCount(g) == |Filter(docs, ByOfficer(officerId))|
  {
    GroupByStatus(Filter(docs, ByOfficer(officerId)))
  }
}

=== FILE: numeric.dfy ===
/**
 * Exact-rational stand-ins for the JavaScript number operations the core
 * uses: `Math.pow` with a whole exponent and `Math.round(x * 100) / 100`.
 */
module Numeric {

  /** `Math.pow(x, n)` for a whole, non-negative exponent. */
  function Pow(x: real, n: nat): real
  {
    if n == 0 then 1.0 else x * Pow(x, n - 1)
  }

  lemma {:induction false} PowAtLeastOne(x: real, n: nat)
    requires x >= 1.0
    ensures Pow(x, n) >= 1.0
  {
    if n > 0 {
      PowAtLeastOne(x, n - 1);
      assert x * Pow(x, n - 1) >= Pow(x, n - 1);
    }
  }

  lemma {:induction false} PowAboveOne(x: real, n: nat)
    requires x > 1.0 && n >= 1
    ensures Pow(x, n) > 1.0
  {
    PowAtLeastOne(x, n - 1);
    assert x * Pow(x, n - 1) > Pow(x, n - 1);
  }

  /** Multiplying by a non-negative factor keeps an inequality. */
  lemma MulMonotone(a: real, x: real, y: real)
    requires a >= 0.0 && x <= y
    ensures a * x <= a * y
  {
  }

  /** Dividing and multiplying back by the same non-zero number cancels. */
  lemma DivMulCancel(x: real, d: real)
    requires d != 0.0
    ensures (x / d) * d == x
  {
  }

  /** A strict inequality between products with a common positive factor holds between the other factors. */
  lemma MulCancelLess(a: real, b: real, c: real)
    requires c > 0.0 && a * c < b * c
    ensures a < b
  {
  }

  /** A non-strict inequality between products with a common positive factor holds between the other factors. */
  lemma MulCancelLessEq(a: real, b: real, c: real)
    requires c > 0.0 && a * c <= b * c
    ensures a <= b
  {
  }

  /** A positive number is half of its double. */
  lemma HalfOfDouble(x: real)
    requires x > 0.0
    ensures x / (x * 2.0) == 0.5
  {
    DivMulCancel(x, x * 2.0);
    assert 0.5 * (x * 2.0) == x;
    MulCancelEq(x / (x * 2.0), 0.5, x * 2.0);
  }

  /** Products equal with a common non-zero factor have equal other factors. */
  lemma MulCancelEq(a: real, b: real, c: real)
    requires c != 0.0 && a * c == b * c
    ensures a == b
  {
  }

  /** A quotient of a number between 0 and a positive divisor lies in [0,1]. */
  lemma QuotientInUnit(a: real, d: real)
    requires d != 0.0
    ensures (a / d) * d == a
    ensures d > 0.0 && 0.0 <= a <= d ==> 0.0 <= a / d <= 1.0
  {
    if d > 0.0 && 0.0 <= a <= d {
      assert (a / d) * d == a;
      MulCancelLessEq(0.0, a / d, d);
      MulCancelLessEq(a / d, 1.0, d);
    }
  }

  /**
   * Compound growth is at most linear growth at the final balance:
   * (1+r)^n - 1 <= n*r*(1+r)^n for r >= 0.
   */
  lemma {:induction false} PowGrowthBound(r: real, n: nat)
    requires r >= 0.0
    ensures Pow(1.0 + r, n) - 1.0 <= (n as real) * r * Pow(1.0 + r, n)
  {
    if n > 0 {
      var p := Pow(1.0 + r, n - 1);
      var m := (n - 1) as real;
      PowGrowthBound(r, n - 1);
      PowAtLeastOne(1.0 + r, n - 1);
      assert Pow(1.0 + r, n) == (1.0 + r) * p;
      // (1+r)p - 1 = (p - 1) + r p <= m r p + r p = n r p <= n r (1+r) p
      assert p - 1.0 <= m * r * p;
      assert m * r * p + r * p == (m + 1.0) * (r * p);
      assert m + 1.0 == n as real;
      MulMonotone((n as real) * r, p, (1.0 + r) * p);
      assert (n as real) * r * p == (n as real) * (r * p);
    }
  }

  /** A value that is a whole number of hundredths (paise, or 0.01 of a score). */
  predicate IsCents(v: real) {
    ((v * 100.0).Floor as real) == v * 100.0
  }

  /** `Math.round(x * 100) / 100`: rounds half up to two decimals. */
  function Round2(x: real): (r: real)
    ensures IsCents(r)
    ensures x - 0.005 < r <= x + 0.005
  {
    ((x * 100.0 + 0.5).Floor as real) / 100.0
  }

  /** Rounding keeps the order of its arguments. */
  lemma Round2Monotone(x: real, y: real)
    requires x <= y
    ensures Round2(x) <= Round2(y)
  {
    assert (x * 100.0 + 0.5).Floor <= (y * 100.0 + 0.5).Floor;
  }

  /** A value already in hundredths is unchanged by rounding. */
  lemma Round2OfCents(v: real)
    requires IsCents(v)
    ensures Round2(v) == v
  {
    var k := (v * 100.0).Floor;
    assert v * 100.0 + 0.5 == k as real + 0.5;
    assert (v * 100.0 + 0.5).Floor == k;
  }

  /** Rounding lands above 1 exactly from 1.005 up, the first value that rounds to 1.01. */
  lemma Round2AboveOne(x: real)
    ensures Round2(x) > 1.0 <==> x >= 1.005
  {
    var k := (x * 100.0 + 0.5).Floor;
    if x >= 1.005 {
      assert x * 100.0 + 0.5 >= 101.0;
      assert k >= 101;
    } else {
      assert x * 100.0 + 0.5 < 101.0;
      assert k <= 100;
    }
  }

  /** Rounding twice is rounding once. */
  lemma Round2Idempotent(x: real)
    ensures Round2(Round2(x)) == Round2(x)
  {
    Round2OfCents(Round2(x));
  }
}

=== FILE: officer.dfy ===
/**
 * The officer profile of `backend/src/models/LoanOfficer.js`: defaults and
 * the review counters that the review handler increments.
 */
module Officers {
  import opened Results
  import opened Text
  import opened Applications

  datatype Department = PERSONAL_LOANS | HOME_LOANS | BUSINESS_LOANS | GENERAL

  datatype OfficerStats = OfficerStats(totalReviewed: nat, totalApproved: nat, totalRejected: nat)

  datatype LoanOfficer = LoanOfficer(
    id: Id,
    userId: Id,
    branch: string,
    employeeId: Option<string>,
    department: Department,
    approvalLimit: real,
    stats: OfficerStats)

  const ZeroStats: OfficerStats := OfficerStats(0, 0, 0)
  const DefaultBranch: string := "Main Branch"
  const DefaultApprovalLimit: real := 10000000.0

  /** Terminal decisions never outnumber reviews. */
  predicate StatsConsistent(s: OfficerStats) {
    s.totalApproved + s.totalRejected <= s.totalReviewed
  }

  predicate OfficerValid(o: LoanOfficer) {
    o.approvalLimit >= 0.0 && StatsConsistent(o.stats)
  }

  /**
   * A new officer document: branch trimmed (default "Main Branch"),
   * department GENERAL, approval limit 10,000,000 and all counters zero
   * unless given.
   */
  function NewOfficer(id: Id, userId: Id, branch: Option<string>, employeeId: Option<string>,
                      department: Option<Department>, approvalLimit: Option<real>): (o: LoanOfficer)
    ensures o.stats == ZeroStats && StatsConsistent(o.stats)
    ensures branch.None? ==> o.branch == DefaultBranch
    ensures branch.Some? ==> o.branch == Trim(branch.value)
    ensures o.department == department.GetOr(GENERAL)
    ensures o.approvalLimit == approvalLimit.GetOr(DefaultApprovalLimit)
    ensures OfficerValid(o) <==> approvalLimit.GetOr(DefaultApprovalLimit) >= 0.0
  {
    var b := if branch.Some? then Trim(branch.value) else DefaultBranch;
    LoanOfficer(id, userId, b, employeeId, department.GetOr(GENERAL),
                approvalLimit.GetOr(DefaultApprovalLimit), ZeroStats)
  }
}

=== FILE: officer_controller.dfy ===
/**
 * The officer handlers of `backend/src/controllers/officer.controller.js`:
 * the review transition with its guards and counters, and the three
 * paginated listings. The request validators of
 * `backend/src/routes/officer.routes.js` run first.
 */
module OfficerController {
  import opened Results
  import opened Text
  import opened Applications
  import opened Officers
  import opened Queries
  import opened Store

  // ---- Review ----

  /** The three statuses an officer may set. */
  predicate IsReviewStatus(name: string) {
    name == "APPROVED" || name == "REJECTED" || name == "UNDER_REVIEW"
  }

  const StatusMessage: string := "Status must be APPROVED, REJECTED, or UNDER_REVIEW"
  const NotesMessage: string := "Review notes cannot exceed 1000 characters"
  const LoanNotFound: string := "Loan application not found"
  const OfficerNotFound: string := "Officer profile not found"
  const InvalidStatus: string := "Invalid status. Must be APPROVED, REJECTED, or UNDER_REVIEW"

  /**
   * The route validators' error list: `status` must be one of the three
   * review statuses exactly, and trimmed `reviewNotes`, when given, may not
   * exceed 1000 characters.
   */
  function ReviewErrors(status: string, reviewNotes: Option<string>): (errs: seq<string>)
    ensures errs == [] <==> IsReviewStatus(status)
                            && (reviewNotes.Some? ==> |Trim(reviewNotes.value)| <= MaxReviewNotesLength)
    ensures StatusMessage in errs <==> !IsReviewStatus(status)
    ensures NotesMessage in errs <==> reviewNotes.Some? && |Trim(reviewNotes.value)| > MaxReviewNotesLength
  {
    (if IsReviewStatus(status) then [] else [StatusMessage])
    + (if reviewNotes.Some? && |Trim(reviewNotes.value)| > MaxReviewNotesLength then [NotesMessage] else [])
  }

  /**
   * The guards of `reviewLoan` in their order: validation, missing
   * application, application already decided, missing officer profile,
   * status outside the review statuses after upper-casing. `Ok` carries the
   * status to set.
   */
  function ReviewDecision(app: Option<LoanApplication>, officerFound: bool,
                          status: string, reviewNotes: Option<string>): (r: Outcome<Status>)
    ensures r.Ok? <==> && ReviewErrors(status, reviewNotes) == []
                       && app.Some? && !Terminal(app.value.status) && officerFound
                       && IsReviewStatus(Upper(status))
    ensures r.Ok? ==> StatusName(r.value) == Upper(status) && r.value != PENDING
    ensures ReviewErrors(status, reviewNotes) != [] ==> r == Invalid(ReviewErrors(status, reviewNotes))
    ensures ReviewErrors(status, reviewNotes) == [] && app.None? ==> r == NotFound(LoanNotFound)
    ensures ReviewErrors(status, reviewNotes) == [] && app.Some? && Terminal(app.value.status)
            ==> r == BadRequest("Loan has already been " + Lower(StatusName(app.value.status)))
    ensures ReviewErrors(status, reviewNotes) == [] && app.Some? && !Terminal(app.value.status) && !officerFound
            ==> r == NotFound(OfficerNotFound)
    ensures ReviewErrors(status, reviewNotes) == [] && app.Some? && !Terminal(app.value.status) && officerFound
              && !IsReviewStatus(Upper(status))
            ==> r == BadRequest(InvalidStatus)
  {
    var errs := ReviewErrors(status, reviewNotes);
    if errs != [] then Invalid(errs)
    else if app.None? then NotFound(LoanNotFound)
    else if Terminal(app.value.status) then
      BadRequest("Loan has already been " + Lower(StatusName(app.value.status)))
    else if !officerFound then NotFound(OfficerNotFound)
    else if !IsReviewStatus(Upper(status)) then
      BadRequest(InvalidStatus)
    else Ok(ParseStatus(Upper(status)).value)
  }

  /**
   * The controller's own status check can never refuse a request the route
   * validator let through: a validated status is already upper case.
   */
  lemma ValidatedStatusAlwaysAccepted(status: string, reviewNotes: Option<string>)
    requires ReviewErrors(status, reviewNotes) == []
    ensures Upper(status) == status && IsReviewStatus(Upper(status))
  {
    var s := if status == "APPROVED" then APPROVED else if status == "REJECTED" then REJECTED else UNDER_REVIEW;
    assert StatusName(s) == status;
    StatusNameUpper(s);
  }

  /**
   * The fields a successful review writes: the status, the reviewing officer,
   * the (trimmed) notes or the empty string, and the review time. Nothing
   * else changes.
   */
  function Reviewed(app: LoanApplication, decided: Status, officerId: Id,
                    reviewNotes: Option<string>, now: int): (r: LoanApplication)
    ensures r.status == decided && r.officerId == Some(officerId) && r.reviewedAt == Some(now)
    ensures r.reviewNotes == Some(Trim(reviewNotes.GetOr("")))
    ensures r.customerId == app.customerId && r.amountRequested == app.amountRequested
    ensures r.tenureMonths == app.tenureMonths && r.loanType == app.loanType && r.purpose == app.purpose
    ensures r.eligibilityScore == app.eligibilityScore && r.interestRate == app.interestRate
    ensures r.monthlyEMI == app.monthlyEMI && r.createdAt == app.createdAt
    ensures ReviewFieldsPaired(r)
    ensures ApplicationValid(app) && |Trim(reviewNotes.GetOr(""))| <= MaxReviewNotesLength ==> ApplicationValid(r)
  {
    app.(status := decided, officerId := Some(officerId),
         reviewNotes := Some(Trim(reviewNotes.GetOr(""))), reviewedAt := Some(now))
  }

  /** The counter update of one review. */
  function Tally(stats: OfficerStats, decided: Status): (t: OfficerStats)
    ensures t.totalReviewed == stats.totalReviewed + 1
    ensures t.totalApproved == stats.totalApproved + (if decided == APPROVED then 1 else 0)
    ensures t.totalRejected == stats.totalRejected + (if decided == REJECTED then 1 else 0)
    ensures StatsConsistent(stats) ==> StatsConsistent(t)
  {
    var approved := if decided == APPROVED then stats.totalApproved + 1 else stats.totalApproved;
    var rejected := if decided == REJECTED then stats.totalRejected + 1 else stats.totalRejected;
    OfficerStats(stats.totalReviewed + 1, approved, rejected)
  }

  /** The counters after a sequence of reviews, oldest first. */
  function TallyAll(stats: OfficerStats, decisions: seq<Status>): OfficerStats
    decreases |decisions|
  {
    if decisions == [] then stats
    else Tally(TallyAll(stats, decisions[..|decisions| - 1]), decisions[|decisions| - 1])
  }

  /** How often `s` occurs in `decisions`. */
  function Occurrences(decisions: seq<Status>, s: Status): nat
    decreases |decisions|
  {
    if decisions == [] then 0
    else Occurrences(decisions[..|decisions| - 1], s) + (if decisions[|decisions| - 1] == s then 1 else 0)
  }

  /**
   * Starting from the zero counters of a new officer, the counters are the
   * number of reviews, of approvals and of rejections, so approvals and
   * rejections together never exceed reviews.
   */
  lemma {:induction false} CountersCountReviews(decisions: seq<Status>)
    ensures TallyAll(ZeroStats, decisions)
            == OfficerStats(|decisions|, Occurrences(decisions, APPROVED), Occurrences(decisions, REJECTED))
    ensures StatsConsistent(TallyAll(ZeroStats, decisions))
    decreases |decisions|
  {
    if decisions != [] {
      var init := decisions[..|decisions| - 1];
      CountersCountReviews(init);
      assert Occurrences(init, APPROVED) + Occurrences(init, REJECTED) <= |init| by {
        OccurrencesDisjoint(init);
      }
    }
  }

  lemma {:induction false} OccurrencesDisjoint(decisions: seq<Status>)
    ensures Occurrences(decisions, APPROVED) + Occurrences(decisions, REJECTED) <= |decisions|
    decreases |decisions|
  {
    if decisions != [] {
      OccurrencesDisjoint(decisions[..|decisions| - 1]);
    }
  }

  /** One approval and one rejection make two reviews. */
  lemma CountersExample()
    ensures TallyAll(ZeroStats, [APPROVED, REJECTED]) == OfficerStats(2, 1, 1)
  {
    assert [APPROVED, REJECTED][..1] == [APPROVED];
    assert [APPROVED][..0] == [];
  }

  /** One review request against an application, as the store sees it. */
  datatype Attempt = Attempt(officerId: Id, status: string, reviewNotes: Option<string>, now: int)

  /** The application after one review attempt by an existing officer. */
  function ReviewStep(app: LoanApplication, t: Attempt): (r: LoanApplication)
    ensures Terminal(app.status) ==> r == app
    ensures ReviewDecision(Some(app), true, t.status, t.reviewNotes).Ok?
            ==> r == Reviewed(app, ReviewDecision(Some(app), true, t.status, t.reviewNotes).value,
                              t.officerId, t.reviewNotes, t.now)
    ensures !ReviewDecision(Some(app), true, t.status, t.reviewNotes).Ok? ==> r == app
  {
    var d := ReviewDecision(Some(app), true, t.status, t.reviewNotes);
    if d.Ok? then Reviewed(app, d.value, t.officerId, t.reviewNotes, t.now) else app
  }

  function Replay(app: LoanApplication, attempts: seq<Attempt>): LoanApplication
    decreases |attempts|
  {
    if attempts == [] then app else Replay(ReviewStep(app, attempts[0]), attempts[1..])
  }

  /** APPROVED and REJECTED are absorbing: no sequence of reviews changes a decided application. */
  lemma {:induction false} DecidedIsAbsorbing(app: LoanApplication, attempts: seq<Attempt>)
    requires Terminal(app.status)
    ensures Replay(app, attempts) == app
    decreases |attempts|
  {
    if attempts != [] {
      DecidedIsAbsorbing(ReviewStep(app, attempts[0]), attempts[1..]);
    }
  }

  /** Review statuses never return an application to PENDING. */
  lemma {:induction false} NeverBackToPending(app: LoanApplication, attempts: seq<Attempt>)
    requires app.status != PENDING
    ensures Replay(app, attempts).status != PENDING
    decreases |attempts|
  {
    if attempts != [] {
      NeverBackToPending(ReviewStep(app, attempts[0]), attempts[1..]);
    }
  }

  /** What a successful review answers: the message and the saved application. */
  datatype ReviewResult = ReviewResult(message: string, application: LoanApplication)

  /**
   * `reviewLoan`: the guards of `ReviewDecision` run first, in the handler's
   * order and with its answers; on success the application takes the review
   * fields and the officer's counters are tallied; on every refusal nothing
   * changes.
   */
  method ReviewLoan(store: LoanStore, userId: Id, id: Id, status: string,
                    reviewNotes: Option<string>, now: int) returns (r: Outcome<ReviewResult>)
    requires store.Valid()
    modifies store`apps, store`officers
    ensures store.Valid()
    ensures var d := ReviewDecision(if id in old(store.apps) then Some(old(store.apps)[id]) else None,
                                    userId in old(store.officers), status, reviewNotes);
            && (!d.Ok? ==> && r == d.Cast()
                           && store.apps == old(store.apps) && store.officers == old(store.officers))
            && (d.Ok? ==>
                  var officer := old(store.officers)[userId];
                  var app := Reviewed(old(store.apps)[id], d.value, officer.id, reviewNotes, now);
                  && store.apps == old(store.apps)[id := app]
                  && store.officers == old(store.officers)[userId := officer.(stats := Tally(officer.stats, d.value))]
                  && r == Ok(ReviewResult("Loan application " + Lower(status) + " successfully", app)))
  {
    var found := if id in store.apps then Some(store.apps[id]) else None;
    var d := ReviewDecision(found, userId in store.officers, status, reviewNotes);
    if !d.Ok? {
      return d.Cast();
    }
    var application := SaveReview(store, id, userId, d.value, reviewNotes, now);
    r := Ok(ReviewResult("Loan application " + Lower(status) + " successfully", application));
  }

  /**
   * Lines 153-166 of `reviewLoan`: the four review fields are assigned and
   * saved, then the officer's counters are incremented and saved.
   */
  method SaveReview(store: LoanStore, id: Id, userId: Id, decided: Status,
                    reviewNotes: Option<string>, now: int) returns (application: LoanApplication)
    requires store.Valid() && id in store.apps && userId in store.officers
    requires |Trim(reviewNotes.GetOr(""))| <= MaxReviewNotesLength
    modifies store`apps, store`officers
    ensures store.Valid()
    ensures application == Reviewed(old(store.apps)[id], decided, old(store.officers)[userId].id, reviewNotes, now)
    ensures store.apps == old(store.apps)[id := application]
    ensures var officer := old(store.officers)[userId];
            store.officers == old(store.officers)[userId := officer.(stats := Tally(officer.stats, decided))]
  {
    var officer := store.Officer(userId);
    application := Reviewed(store.App(id), decided, officer.id, reviewNotes, now);
    store.SaveApp(id, application);
    store.SaveOfficer(userId, officer.(stats := Tally(officer.stats, decided)));
  }

  // ---- Listings ----

  /** The `order` query parameter: only "asc" sorts oldest first. */
  function Ordered(matches: seq<LoanApplication>, order: Option<string>): (r: seq<LoanApplication>)
    ensures |r| == |matches|
    ensures order == Some("asc") ==> r == matches
    ensures order != Some("asc") ==> forall i :: 0 <= i < |r| ==> r[i] == matches[|matches| - 1 - i]
    ensures forall a :: a in r <==> a in matches
  {
    if order == Some("asc") then matches else Reverse(matches)
  }

  /** The statuses the pending queue shows. */
  const PendingStatuses: set<string> := {"PENDING", "UNDER_REVIEW"}

  /** The pending query selects exactly the applications that are PENDING or UNDER_REVIEW. */
  lemma PendingQuerySelects(a: LoanApplication)
    ensures Matches(a, Query(None, None, Some(PendingStatuses), None, None))
            <==> a.status == PENDING || a.status == UNDER_REVIEW
  {
    assert StatusName(APPROVED) !in PendingStatuses;
    assert StatusName(REJECTED) !in PendingStatuses;
  }

  /**
   * `getPendingLoans`: the PENDING and UNDER_REVIEW applications, newest
   * first unless `order` is "asc", one page of them, and their count.
   */
  method GetPendingLoans(store: LoanStore, page: Option<nat>, limit: Option<nat>, order: Option<string>)
    returns (r: Listing)
    requires store.Valid()
    requires page.GetOr(1) >= 1 && limit.GetOr(10) >= 1
    ensures r == ListingOf(Ordered(Filter(store.Docs(), Query(None, None, Some(PendingStatuses), None, None)), order),
                           page.GetOr(1), limit.GetOr(10))
    ensures forall k :: 0 <= k < |r.loans| ==> r.loans[k].status in {PENDING, UNDER_REVIEW}
    ensures r.total <= |store.order|
  {
    var p := page.GetOr(1);
    var l := limit.GetOr(10);
    var query := Everything;
    query := query.(statuses := Some(PendingStatuses));
    var matches := Filter(store.Docs(), query);
    var ordered := Ordered(matches, order);
    r := ListingOf(ordered, p, l);
    forall k | 0 <= k < |r.loans|
      ensures r.loans[k].status in {PENDING, UNDER_REVIEW}
    {
      PendingQuerySelects(r.loans[k]);
    }
  }

  /**
   * The query `getAllLoans` builds: the upper-cased status when one is
   * given, and an inclusive amount range for whichever bounds are given.
   */
  method AllLoansQuery(status: Option<string>, minAmount: Option<real>, maxAmount: Option<real>)
    returns (q: Query)
    ensures q == Query(None, None, StatusFilter(status), minAmount, maxAmount)
    ensures forall a :: Matches(a, q) <==>
              && (status.Some? && status.value != "" ==> StatusName(a.status) == Upper(status.value))
              && (minAmount.Some? ==> a.amountRequested >= minAmount.value)
              && (maxAmount.Some? ==> a.amountRequested <= maxAmount.value)
  {
    q := Everything;
    if status.Some? && status.value != "" {
      q := q.(statuses := Some({Upper(status.value)}));
    }
    if minAmount.Some? || maxAmount.Some? {
      if minAmount.Some? {
        q := q.(minAmount := minAmount);
      }
      if maxAmount.Some? {
        q := q.(maxAmount := maxAmount);
      }
    }
  }

  /** `getAllLoans`: the applications matching the built query, ordered and paginated. */
  method GetAllLoans(store: LoanStore, status: Option<string>, page: Option<nat>, limit: Option<nat>,
                     order: Option<string>, minAmount: Option<real>, maxAmount: Option<real>)
    returns (r: Listing)
    requires store.Valid()
    requires page.GetOr(1) >= 1 && limit.GetOr(10) >= 1
    ensures r == ListingOf(Ordered(Filter(store.Docs(), Query(None, None, StatusFilter(status), minAmount, maxAmount)),
                                   order),
                           page.GetOr(1), limit.GetOr(10))
    ensures forall k :: 0 <= k < |r.loans| ==>
              && (minAmount.Some? ==> r.loans[k].amountRequested >= minAmount.value)
              && (maxAmount.Some? ==> r.loans[k].amountRequested <= maxAmount.value)
              && (status.Some? && status.value != "" ==> StatusName(r.loans[k].status) == Upper(status.value))
              && r.loans[k] in store.Docs()
    ensures r.total <= |store.order| && |r.loans| <= limit.GetOr(10)
    ensures r.page == page.GetOr(1) && r.limit == limit.GetOr(10) && r.total <= r.pages * r.limit
  {
    var p := page.GetOr(1);
    var l := limit.GetOr(10);
    var query := AllLoansQuery(status, minAmount, maxAmount);
    var matches := Filter(store.Docs(), query);
    var ordered := Ordered(matches, order);
    r := ListingOf(ordered, p, l);
  }

  /** Descending `reviewedAt` order; an application never reviewed sorts last. */
  predicate ReviewedNoEarlier(a: LoanApplication, b: LoanApplication) {
    b.reviewedAt.None? || (a.reviewedAt.Some? && a.reviewedAt.value >= b.reviewedAt.value)
  }

  predicate NewestReviewFirst(s: seq<LoanApplication>) {
    forall i, j :: 0 <= i < j < |s| ==> ReviewedNoEarlier(s[i], s[j])
  }

  /** Putting an element reviewed no earlier than the head in front keeps the order. */
  lemma ConsNewestFirst(x: LoanApplication, t: seq<LoanApplication>)
    requires NewestReviewFirst(t)
    requires t != [] ==> ReviewedNoEarlier(x, t[0])
    ensures NewestReviewFirst([x] + t)
  {
    var u := [x] + t;
    forall i, j | 0 <= i < j < |u|
      ensures ReviewedNoEarlier(u[i], u[j])
    {
      assert u[j] == t[j - 1];
      if i == 0 {
        if j > 1 {
          assert ReviewedNoEarlier(t[0], t[j - 1]);
        }
      } else {
        assert u[i] == t[i - 1];
      }
    }
  }

  /** Dropping the head keeps the order. */
  lemma TailNewestFirst(s: seq<LoanApplication>)
    requires s != [] && NewestReviewFirst(s)
    ensures NewestReviewFirst(s[1..])
  {
    forall i, j | 0 <= i < j < |s[1..]|
      ensures ReviewedNoEarlier(s[1..][i], s[1..][j])
    {
      assert s[1..][i] == s[i + 1] && s[1..][j] == s[j + 1];
    }
  }

  /** Inserts `a` in front of the first element reviewed no later than it. */
  function InsertByReview(a: LoanApplication, s: seq<LoanApplication>): (r: seq<LoanApplication>)
    requires NewestReviewFirst(s)
    ensures multiset(r) == multiset(s) + multiset{a} && |r| == |s| + 1
    ensures NewestReviewFirst(r)
    ensures r != [] && (r[0] == a || (s != [] && r[0] == s[0]))
  {
    if s == [] then [a]
    else if ReviewedNoEarlier(a, s[0]) then
      ConsNewestFirst(a, s);
      [a] + s
    else
      TailNewestFirst(s);
      var rest := InsertByReview(a, s[1..]);
      assert |s| > 1 ==> ReviewedNoEarlier(s[0], s[1]);
      ConsNewestFirst(s[0], rest);
      assert s == [s[0]] + s[1..];
      [s[0]] + rest
  }

  /** `.sort({ reviewedAt: -1 })`: a reordering, most recent review first. */
  function SortByReview(s: seq<LoanApplication>): (r: seq<LoanApplication>)
    ensures multiset(r) == multiset(s) && |r| == |s|
    ensures NewestReviewFirst(r)
  {
    if s == [] then []
    else
      assert s == [s[0]] + s[1..];
      InsertByReview(s[0], SortByReview(s[1..]))
  }

  /** A page of a list in review order is in review order. */
  lemma PageNewestFirst(items: seq<LoanApplication>, page: nat, limit: nat)
    requires page >= 1 && limit >= 1 && NewestReviewFirst(items)
    ensures NewestReviewFirst(Page(items, page, limit))
  {
    var r := Page(items, page, limit);
    forall i, j | 0 <= i < j < |r|
      ensures ReviewedNoEarlier(r[i], r[j])
    {
      assert r[i] == items[Skip(page, limit) + i];
      assert r[j] == items[Skip(page, limit) + j];
    }
  }

  /** Every entry of a page of a reordering of `matches` is one of `matches`. */
  lemma PageOfReordering(items: seq<LoanApplication>, matches: seq<LoanApplication>, page: nat, limit: nat)
    requires page >= 1 && limit >= 1 && multiset(items) == multiset(matches)
    ensures forall k :: 0 <= k < |Page(items, page, limit)| ==> Page(items, page, limit)[k] in matches
  {
    var r := Page(items, page, limit);
    forall k | 0 <= k < |r|
      ensures r[k] in matches
    {
      assert r[k] == items[Skip(page, limit) + k];
      assert r[k] in multiset(items);
    }
  }

  /** The query `getMyReviews` builds: the officer, and the upper-cased status when given. */
  method ReviewsQuery(officerId: Id, status: Option<string>) returns (q: Query)
    ensures q == Query(None, Some(officerId),
                       StatusFilter(status), None, None)
    ensures forall a :: Matches(a, q) <==>
              && a.officerId == Some(officerId)
              && (status.Some? && status.value != "" ==> StatusName(a.status) == Upper(status.value))
  {
    q := Everything.(officerId := Some(officerId));
    if status.Some? && status.value != "" {
      q := q.(statuses := Some({Upper(status.value)}));
    }
  }

  /**
   * `getMyReviews`: the applications the calling officer reviewed, filtered
   * by the upper-cased status when given, most recently reviewed first,
   * paginated.
   */
  method GetMyReviews(store: LoanStore, userId: Id, status: Option<string>,
                      page: Option<nat>, limit: Option<nat>) returns (r: Outcome<Listing>)
    requires store.Valid()
    requires page.GetOr(1) >= 1 && limit.GetOr(10) >= 1
    ensures userId !in store.officers <==> r == NotFound(OfficerNotFound)
    ensures userId in store.officers ==> r.Ok?
    ensures r.Ok? ==>
              var officer := store.officers[userId];
              var statuses := StatusFilter(status);
              && r.value == ListingOf(SortByReview(Filter(store.Docs(), Query(None, Some(officer.id), statuses, None, None))),
                                      page.GetOr(1), limit.GetOr(10))
              && r.value.total == |Filter(store.Docs(), Query(None, Some(officer.id), statuses, None, None))|
              && NewestReviewFirst(r.value.loans)
              && (forall k :: 0 <= k < |r.value.loans| ==>
                    && r.value.loans[k].officerId == Some(officer.id)
                    && (statuses.Some? ==> StatusName(r.value.loans[k].status) in statuses.value)
                    && r.value.loans[k] in store.Docs())
  {
    if userId !in store.officers {
      return NotFound(OfficerNotFound);
    }
    var officer := store.officers[userId];
    var query := ReviewsQuery(officer.id, status);
    var p := page.GetOr(1);
    var l := limit.GetOr(10);
    var matches := Filter(store.Docs(), query);
    var sorted := SortByReview(matches);
    var listing := ListingOf(sorted, p, l);
    PageOfReordering(sorted, matches, p, l);
    PageNewestFirst(sorted, p, l);
    r := Ok(listing);
  }
}

=== FILE: queries.dfy ===
/**
 * The read side the handlers use: a conjunctive query over application
 * documents (`find` / `countDocuments`), newest-first ordering and
 * `skip`/`limit` pagination with its page count.
 */
module Queries {
  import opened Results
  import opened Text
  import opened Applications

  /**
   * A query document: each present field must match. `statuses` holds
   * status tokens as the handler built them (after upper-casing the request),
   * so a token that names no status matches nothing.
   */
  datatype Query = Query(
    customerId: Option<Id>,
    officerId: Option<Id>,
    statuses: Option<set<string>>,
    minAmount: Option<real>,
    maxAmount: Option<real>)

  const Everything: Query := Query(None, None, None, None, None)

  /**
   * `if (status) query.status = status.toUpperCase()`: the status filter a
   * handler builds from its `status` query parameter; an absent or empty
   * parameter filters nothing.
   */
  function StatusFilter(status: Option<string>): Option<set<string>> {
    if status.Some? && status.value != "" then Some({Upper(status.value)}) else None
  }

  predicate Matches(a: LoanApplication, q: Query) {
    && (q.customerId.Some? ==> a.customerId == q.customerId.value)
    && (q.officerId.Some? ==> a.officerId == Some(q.officerId.value))
    && (q.statuses.Some? ==> StatusName(a.status) in q.statuses.value)
    && (q.minAmount.Some? ==> a.amountRequested >= q.minAmount.value)
    && (q.maxAmount.Some? ==> a.amountRequested <= q.maxAmount.value)
  }

  /** The documents of `docs` that match `q`, in their original order. */
  function Filter(docs: seq<LoanApplication>, q: Query): (r: seq<LoanApplication>)
    ensures |r| <= |docs|
    ensures forall i :: 0 <= i < |r| ==> Matches(r[i], q) && r[i] in docs
    ensures forall i :: 0 <= i < |docs| && Matches(docs[i], q) ==> docs[i] in r
    ensures forall a :: a in r ==> Matches(a, q) && a in docs
    ensures forall a :: multiset(r)[a] == if Matches(a, q) then multiset(docs)[a] else 0
    decreases |docs|
  {
    if docs == [] then []
    else
      var rest := Filter(docs[..|docs| - 1], q);
      var last := docs[|docs| - 1];
      assert forall i :: 0 <= i < |docs| - 1 ==> docs[i] == docs[..|docs| - 1][i];
      assert docs == docs[..|docs| - 1] + [last];
      if Matches(last, q) then rest + [last] else rest
  }

  /**
   * Filtering keeps the documents' order: the matches of two runs of
   * documents are the matches of the first followed by those of the second.
   */
  lemma {:induction false} FilterAppend(a: seq<LoanApplication>, b: seq<LoanApplication>, q: Query)
    ensures Filter(a + b, q) == Filter(a, q) + Filter(b, q)
    decreases |b|
  {
    if b == [] {
      assert a + b == a;
    } else {
      var init := b[..|b| - 1];
      var last := b[|b| - 1];
      assert (a + b)[..|a + b| - 1] == a + init;
      assert (a + b)[|a + b| - 1] == last;
      FilterAppend(a, init, q);
    }
  }

  /** One document is kept exactly when it matches. */
  lemma FilterSingle(d: LoanApplication, q: Query)
    ensures Filter([d], q) == if Matches(d, q) then [d] else []
  {
    assert [d][..0] == [];
  }

  function Reverse<T(!new)>(s: seq<T>): (r: seq<T>)
    ensures |r| == |s|
    ensures forall i :: 0 <= i < |s| ==> r[i] == s[|s| - 1 - i]
    ensures forall x :: x in r <==> x in s
  {
    if s == [] then [] else Reverse(s[1..]) + [s[0]]
  }

  /** `(page - 1) * limit`: how many matches the page skips. */
  function Skip(page: nat, limit: nat): nat
    requires page >= 1
  {
    (page - 1) * limit
  }

  /** `Math.ceil(total / limit)`: the number of pages. */
  function PageCount(total: nat, limit: nat): (pages: nat)
    requires limit >= 1
    ensures total <= pages * limit
    ensures pages > 0 ==> (pages - 1) * limit < total
  {
    (total + limit - 1) / limit
  }

  /** `.skip(skip).limit(limit)` applied to the ordered matches. */
  function Page<T(!new)>(items: seq<T>, page: nat, limit: nat): (r: seq<T>)
    requires page >= 1 && limit >= 1
    ensures |r| <= limit
    ensures forall k :: 0 <= k < |r| ==> Skip(page, limit) + k < |items| && r[k] == items[Skip(page, limit) + k]
    ensures forall x :: x in r ==> x in items
  {
    var from := if Skip(page, limit) < |items| then Skip(page, limit) else |items|;
    var to := if Skip(page, limit) + limit < |items| then Skip(page, limit) + limit else |items|;
    items[from..to]
  }

  /**
   * The pages partition the matches: the item at position `i` is item
   * `i % limit` of page `i / limit + 1`, and that page is within the count.
   */
  lemma PagesCover<T(!new)>(items: seq<T>, limit: nat, i: nat)
    requires limit >= 1 && i < |items|
    ensures 1 <= i / limit + 1 <= PageCount(|items|, limit)
    ensures i % limit < |Page(items, i / limit + 1, limit)|
    ensures Page(items, i / limit + 1, limit)[i % limit] == items[i]
  {
    var p := i / limit + 1;
    DivSplit(i, limit, |items|);
    assert Skip(p, limit) == (i / limit) * limit;
  }

  /** On plain numbers: `i` splits into whole pages and a remainder, and its page is within the count. */
  lemma DivSplit(i: nat, limit: nat, total: nat)
    requires limit >= 1 && i < total
    ensures (i / limit) * limit + i % limit == i && i % limit < limit
    ensures i / limit + 1 <= (total + limit - 1) / limit
  {
    var n := total + limit - 1;
    assert i + limit <= n;
    assert (i / limit) * limit + i % limit == i;
    assert n / limit * limit + n % limit == n;
  }

  /** The body of a paginated answer. */
  datatype Listing = Listing(
    loans: seq<LoanApplication>, total: nat, page: nat, limit: nat, pages: nat)

  /** The answer for one page of `ordered`: that page, the number of matches and the page count. */
  function ListingOf(ordered: seq<LoanApplication>, page: nat, limit: nat): (l: Listing)
    requires page >= 1 && limit >= 1
    ensures l.total == |ordered| && |l.loans| <= limit
    ensures l.total <= l.pages * limit
    ensures l.loans == Page(ordered, page, limit) && l.pages == PageCount(|ordered|, limit)
    ensures l.page == page && l.limit == limit
  {
    Listing(Page(ordered, page, limit), |ordered|, page, limit, PageCount(|ordered|, limit))
  }
}

=== FILE: results.dfy ===
/** Optional values and handler outcomes shared by the whole model. */
module Results {

  /** A value that may be absent (JavaScript `null` / `undefined`). */
  datatype Option<+T> = None | Some(value: T) {
    function GetOr(default: T): T {
      match this
      case Some(v) => v
      case None => default
    }
  }

  /**
   * What a request handler answers: a value (HTTP 200/201, or `next()` for a
   * middleware) or one of the error responses the handlers send.
   */
  datatype Outcome<+T> =
    | Ok(value: T)
    | Invalid(errors: seq<string>) // 400 with the request validator's messages
    | BadRequest(msg: string)     // 400
    | Unauthorized(msg: string)   // 401
    | Forbidden(msg: string)      // 403
    | NotFound(msg: string)       // 404
    | ServerError(msg: string)    // 500
  {
    /** The same error response, for a handler with another value type. */
    function Cast<U>(): (r: Outcome<U>)
      requires !Ok?
    {
      match this
      case Invalid(e) => Invalid(e)
      case BadRequest(m) => BadRequest(m)
      case Unauthorized(m) => Unauthorized(m)
      case Forbidden(m) => Forbidden(m)
      case NotFound(m) => NotFound(m)
      case ServerError(m) => ServerError(m)
    }
  }
}

=== FILE: role_middleware.dfy ===
/**
 * The role gate of `backend/src/middleware/role.middleware.js`: a request
 * without a role is unauthenticated, a role outside the allowed list is
 * refused, and any other request passes on to the handler (`Ok(())` stands
 * for calling `next()`).
 */
module RoleMiddleware {
  import opened Results
  import opened Text

  const CustomerRole: string := "CUSTOMER"
  const OfficerRole: string := "OFFICER"

  /** `checkRole(...roles)` applied to the request's role (absent or empty means none). */
  function CheckRole(roles: seq<string>, userRole: Option<string>): (r: Outcome<()>)
    ensures r.Ok? || r.Unauthorized? || r.Forbidden?
    ensures r.Unauthorized? <==> userRole.None? || userRole.value == ""
    ensures r.Unauthorized? ==> r.msg == "Authentication required"
    ensures r.Ok? <==> userRole.Some? && userRole.value != "" && userRole.value in roles
    ensures r.Forbidden? ==> r.msg == "Access denied. Required role: " + Join(roles, " or ")
  {
    if userRole.None? || userRole.value == "" then Unauthorized("Authentication required")
    else if userRole.value !in roles then Forbidden("Access denied. Required role: " + Join(roles, " or "))
    else Ok(())
  }

  function IsCustomer(userRole: Option<string>): Outcome<()> {
    CheckRole([CustomerRole], userRole)
  }

  function IsOfficer(userRole: Option<string>): Outcome<()> {
    CheckRole([OfficerRole], userRole)
  }

  function IsAuthenticated(userRole: Option<string>): Outcome<()> {
    CheckRole([CustomerRole, OfficerRole], userRole)
  }

  /** `isCustomer` passes exactly the CUSTOMER role and names it when refusing. */
  lemma IsCustomerAdmits(userRole: Option<string>)
    ensures IsCustomer(userRole).Ok? <==> userRole == Some(CustomerRole)
    ensures IsCustomer(userRole).Forbidden? ==>
              IsCustomer(userRole).msg == "Access denied. Required role: CUSTOMER"
  {
  }

  /** `isOfficer` passes exactly the OFFICER role and names it when refusing. */
  lemma IsOfficerAdmits(userRole: Option<string>)
    ensures IsOfficer(userRole).Ok? <==> userRole == Some(OfficerRole)
    ensures IsOfficer(userRole).Forbidden? ==>
              IsOfficer(userRole).msg == "Access denied. Required role: OFFICER"
  {
  }

  /** `isAuthenticated` passes both roles, and only them, and lists both when refusing. */
  lemma IsAuthenticatedAdmits(userRole: Option<string>)
    ensures IsAuthenticated(userRole).Ok? <==> userRole == Some(CustomerRole) || userRole == Some(OfficerRole)
    ensures IsAuthenticated(userRole).Forbidden? ==>
              IsAuthenticated(userRole).msg == "Access denied. Required role: CUSTOMER or OFFICER"
  {
    var roles := [CustomerRole, OfficerRole];
    assert roles[1..] == [OfficerRole];
    assert Join(roles, " or ") == "CUSTOMER or OFFICER";
  }

  /** No role admitted by one gate is refused by a gate with more roles. */
  lemma WiderGateAdmitsMore(roles: seq<string>, more: seq<string>, userRole: Option<string>)
    requires forall x :: x in roles ==> x in more
    ensures CheckRole(roles, userRole).Ok? ==> CheckRole(more, userRole).Ok?
    ensures CheckRole(roles, userRole).Unauthorized? <==> CheckRole(more, userRole).Unauthorized?
  {
  }
}

=== FILE: store.dfy ===
/**
 * The persistent state the handlers share: the application, customer and
 * officer collections, kept as maps from ids to documents, plus the order in
 * which applications were created (which is also their `createdAt` order).
 */
module Store {
  import opened Results
  import opened Config
  import opened Applications
  import opened Customers
  import opened Officers

  /** The documents named by `order`, in that order. */
  function Collection(apps: map<Id, LoanApplication>, order: seq<Id>): (docs: seq<LoanApplication>)
    requires forall i :: 0 <= i < |order| ==> order[i] in apps
    ensures |docs| == |order|
    ensures forall i :: 0 <= i < |order| ==> docs[i] == apps[order[i]]
  {
    seq(|order|, i requires 0 <= i < |order| => apps[order[i]])
  }

  /** The configuration scores every customer the schema admits within its credit range. */
  predicate CoversCustomerDomain(cfg: ScoringConfig) {
    cfg.loanEvaluation.minCreditScore <= MinCreditScore
    && MaxCreditScore <= cfg.loanEvaluation.maxCreditScore
  }

  /** An application is reviewed exactly when it names an officer and a review time. */
  predicate ReviewFieldsPaired(a: LoanApplication) {
    a.officerId.Some? <==> a.reviewedAt.Some?
  }

  /** Saving a document twice under one key leaves only the second. */
  lemma OverwriteTwice(m: map<Id, LoanApplication>, k: Id, first: LoanApplication, second: LoanApplication)
    ensures m[k := first][k := second] == m[k := second]
  {
  }

  class LoanStore {
    const cfg: ScoringConfig
    /** Customer profiles by their own id. */
    const customers: map<Id, Customer>
    /** The unique index from a user id to that user's customer profile. */
    const customerOfUser: map<Id, Id>
    /** Officer profiles by user id. */
    var officers: map<Id, LoanOfficer>
    /** Applications by id. */
    var apps: map<Id, LoanApplication>
    /** Application ids, oldest first. */
    var order: seq<Id>
    /** The id the next new application receives. */
    var nextId: Id

    ghost predicate Valid()
      reads this
    {
      && WellFormed(cfg) && CoversCustomerDomain(cfg)
      && (forall c :: c in customers ==> customers[c].id == c && CustomerValid(customers[c]))
      && (forall u :: u in customerOfUser ==>
            customerOfUser[u] in customers && customers[customerOfUser[u]].userId == u)
      && (forall u :: u in officers ==> officers[u].userId == u && OfficerValid(officers[u]))
      && (forall id :: id in apps <==> id in order)
      && (forall i :: 0 <= i < |order| ==> order[i] < nextId)
      && (forall i, j :: 0 <= i < j < |order| ==> order[i] != order[j])
      && (forall id :: id in apps ==> ApplicationValid(apps[id]) && ReviewFieldsPaired(apps[id]))
    }

    /** A store with the given profiles and no applications. */
    constructor (cfg: ScoringConfig, customers: map<Id, Customer>, customerOfUser: map<Id, Id>,
                 officers: map<Id, LoanOfficer>)
      requires WellFormed(cfg) && CoversCustomerDomain(cfg)
      requires forall c :: c in customers ==> customers[c].id == c && CustomerValid(customers[c])
      requires forall u :: u in customerOfUser ==>
                 customerOfUser[u] in customers && customers[customerOfUser[u]].userId == u
      requires forall u :: u in officers ==> officers[u].userId == u && OfficerValid(officers[u])
      ensures Valid()
      ensures this.cfg == cfg && this.customers == customers && this.customerOfUser == customerOfUser
      ensures this.officers == officers && apps == map[] && order == [] && nextId == 0
    {
      this.cfg := cfg;
      this.customers := customers;
      this.customerOfUser := customerOfUser;
      this.officers := officers;
      apps := map[];
      order := [];
      nextId := 0;
    }

    /** All applications, oldest first. */
    function Docs(): (docs: seq<LoanApplication>)
      reads this
      requires Valid()
      ensures |docs| == |order|
      ensures forall i :: 0 <= i < |order| ==> docs[i] == apps[order[i]]
    {
      Collection(apps, order)
    }

    /** `new LoanApplication(...).save()`: stores a new application under a fresh id. */
    method Create(app: LoanApplication) returns (id: Id)
      requires Valid() && ApplicationValid(app) && ReviewFieldsPaired(app)
      modifies this`apps, this`order, this`nextId
      ensures Valid()
      ensures id == old(nextId) && id !in old(apps)
      ensures apps == old(apps)[id := app] && order == old(order) + [id] && nextId == old(nextId) + 1
      ensures officers == old(officers)
    {
      id := nextId;
      assert id !in order;
      apps := apps[id := app];
      order := order + [id];
      nextId := nextId + 1;
    }

    /** `application.save()` of an existing application that passes the schema's validators. */
    method SaveApp(id: Id, app: LoanApplication)
      requires Valid() && id in apps
      requires ApplicationValid(app) && ReviewFieldsPaired(app)
      modifies this`apps
      ensures Valid() && apps == old(apps)[id := app]
      ensures officers == old(officers) && order == old(order) && nextId == old(nextId)
    {
      apps := apps[id := app];
    }

    /** `officer.save()` of the profile of `userId`. */
    method SaveOfficer(userId: Id, officer: LoanOfficer)
      requires Valid() && officer.userId == userId && OfficerValid(officer)
      modifies this`officers
      ensures Valid() && officers == old(officers)[userId := officer]
      ensures apps == old(apps) && order == old(order) && nextId == old(nextId)
    {
      officers := officers[userId := officer];
    }

    /** `LoanApplication.findById(id)` of a stored application, which passes the schema's validators. */
    function App(id: Id): (a: LoanApplication)
      reads this
      requires Valid() && id in apps
      ensures a == apps[id] && ApplicationValid(a) && ReviewFieldsPaired(a)
    {
      apps[id]
    }

    /** `LoanOfficer.findOne({ userId })` of an existing profile, whose counters are consistent. */
    function Officer(userId: Id): (o: LoanOfficer)
      reads this
      requires Valid() && userId in officers
      ensures o == officers[userId] && o.userId == userId && OfficerValid(o)
    {
      officers[userId]
    }

    /** `Customer.findOne({ userId })`. */
    function CustomerOf(userId: Id): (c: Option<Customer>)
      reads this
      requires Valid()
      ensures c.Some? <==> userId in customerOfUser
      ensures c.Some? ==> c.value.userId == userId && c.value.id in customers
    {
      if userId in customerOfUser then Some(customers[customerOfUser[userId]]) else None
    }
  }
}

=== FILE: text.dfy ===
/**
 * The string operations the JavaScript code relies on: `toUpperCase`,
 * `toLowerCase` (on ASCII letters), `trim` and `Array.prototype.join`.
 */
module Text {

  predicate IsLower(c: char) { 'a' <= c <= 'z' }
  predicate IsUpper(c: char) { 'A' <= c <= 'Z' }
  predicate IsLetter(c: char) { IsLower(c) || IsUpper(c) }
  predicate IsDigit(c: char) { '0' <= c <= '9' }

  function UpperChar(c: char): (u: char)
    ensures !IsLower(u)
    ensures IsUpper(u) <==> IsLetter(c)
    ensures IsDigit(u) <==> IsDigit(c)
    ensures !IsLower(c) ==> u == c
  {
    if IsLower(c) then (c as int - 32) as char else c
  }

  function LowerChar(c: char): (l: char)
    ensures !IsUpper(l)
    ensures !IsUpper(c) ==> l == c
  {
    if IsUpper(c) then (c as int + 32) as char else c
  }

  /** `s.toUpperCase()`, restricted to the ASCII letters. */
  function Upper(s: string): (r: string)
    ensures |r| == |s|
    ensures forall i :: 0 <= i < |s| ==> r[i] == UpperChar(s[i])
  {
    seq(|s|, i requires 0 <= i < |s| => UpperChar(s[i]))
  }

  /** `s.toLowerCase()`, restricted to the ASCII letters. */
  function Lower(s: string): (r: string)
    ensures |r| == |s|
    ensures forall i :: 0 <= i < |s| ==> r[i] == LowerChar(s[i])
  {
    seq(|s|, i requires 0 <= i < |s| => LowerChar(s[i]))
  }

  /** Upper-casing a string that has no lower-case letter leaves it as it is. */
  lemma UpperFixes(s: string)
    requires forall i :: 0 <= i < |s| ==> !IsLower(s[i])
    ensures Upper(s) == s
  {
  }

  lemma UpperIdempotent(s: string)
    ensures Upper(Upper(s)) == Upper(s)
  {
    UpperFixes(Upper(s));
  }

  /**
   * The characters `String.prototype.trim` removes: the ECMAScript
   * WhiteSpace (tab, vertical tab, form feed, space, no-break space, the
   * byte-order mark and the Unicode "Zs" spaces) and LineTerminator
   * (line feed, carriage return, line and paragraph separators) sets.
   */
  predicate IsSpace(c: char) {
    var n := c as int;
    n == 0x09 || n == 0x0A || n == 0x0B || n == 0x0C || n == 0x0D || n == 0x20
    || n == 0xA0 || n == 0x1680 || (0x2000 <= n <= 0x200A) || n == 0x2028
    || n == 0x2029 || n == 0x202F || n == 0x205F || n == 0x3000 || n == 0xFEFF
  }

  /** Drops the leading white space: the result is the suffix of `s` that starts at its first non-space. */
  function TrimStart(s: string): (r: string)
    ensures |r| <= |s| && r == s[|s| - |r|..]
    ensures r == [] || !IsSpace(r[0])
    ensures forall i :: 0 <= i < |s| - |r| ==> IsSpace(s[i])
    decreases |s|
  {
    if s != [] && IsSpace(s[0]) then TrimStart(s[1..]) else s
  }

  /** Drops the trailing white space: the result is the prefix of `s` that ends at its last non-space. */
  function TrimEnd(s: string): (r: string)
    ensures |r| <= |s| && r == s[..|r|]
    ensures r == [] || !IsSpace(r[|r| - 1])
    ensures forall i :: |r| <= i < |s| ==> IsSpace(s[i])
    decreases |s|
  {
    if s != [] && IsSpace(s[|s| - 1]) then TrimEnd(s[..|s| - 1]) else s
  }

  /** How many white-space characters `s` starts with. */
  function LeadingSpace(s: string): (n: nat)
    ensures n <= |s|
  {
    |s| - |TrimStart(s)|
  }

  /**
   * `s.trim()`: the piece of `s` left after its leading and trailing white
   * space; everything cut off is white space, and the piece neither starts
   * nor ends with white space.
   */
  function Trim(s: string): (r: string)
    ensures LeadingSpace(s) + |r| <= |s| && r == s[LeadingSpace(s)..LeadingSpace(s) + |r|]
    ensures forall i :: 0 <= i < LeadingSpace(s) ==> IsSpace(s[i])
    ensures forall i :: LeadingSpace(s) + |r| <= i < |s| ==> IsSpace(s[i])
    ensures r == [] || (!IsSpace(r[0]) && !IsSpace(r[|r| - 1]))
  {
    var t := TrimStart(s);
    var r := TrimEnd(t);
    assert forall i :: LeadingSpace(s) + |r| <= i < |s| ==> s[i] == t[i - LeadingSpace(s)];
    r
  }

  /** Trimming twice is trimming once (Mongoose trims again what a validator already trimmed). */
  lemma TrimIdempotent(s: string)
    ensures Trim(Trim(s)) == Trim(s)
  {
    var t := Trim(s);
    assert TrimStart(t) == t;
    assert TrimEnd(t) == t;
  }

  /** `xs.join(sep)`. */
  function Join(xs: seq<string>, sep: string): (r: string)
    ensures xs == [] ==> r == ""
    ensures |xs| == 1 ==> r == xs[0]
    ensures |xs| >= 1 ==> |xs[0]| <= |r| && r[..|xs[0]|] == xs[0]
    decreases |xs|
  {
    if xs == [] then ""
    else if |xs| == 1 then xs[0]
    else xs[0] + sep + Join(xs[1..], sep)
  }

  /** Joining one more element appends the separator and that element. */
  lemma {:induction false} JoinAppend(xs: seq<string>, x: string, sep: string)
    requires xs != []
    ensures Join(xs + [x], sep) == Join(xs, sep) + sep + x
    decreases |xs|
  {
    if |xs| == 1 {
      assert xs + [x] == [xs[0], x];
      assert [xs[0], x][1..] == [x];
    } else {
      assert (xs + [x])[1..] == xs[1..] + [x];
      JoinAppend(xs[1..], x, sep);
    }
  }
}
